=== FILE: README.md ===
# Financial-statement parser core, modelled in Dafny

This project models the statement document parser of an SEC filing
pipeline (`parser.go`). The parser first picks the balance sheet, income
statement and cash-flow statement out of a filing's report manifest. It
then turns one rendered statement page into flat line-item records.

The page model (`Markup.Page`) has three parts:

- the rows of the page's first table, each a sequence of `th`/`td` cells
  with a class, a text and an optional link `onclick`;
- one detail block per XBRL tag;
- the optional footnote index table.

The parser runs in these stages:

- **Classifier** (`Classify`): gives each data cell a role by its class.
  The roles are item label, axis or abstract marker, value, footnote
  marker, per-column footnote, or unanchored label.
- **Row loop** (`Scan`): reads the header rows (one for a balance sheet,
  two for an income or cash-flow statement). It then folds the body rows
  into parallel sequences: items, tags, axes, abstracts, value columns and
  markers.
- **Tag metadata** (`Metadata`) and **footnote resolution** (`Footnotes`).
- **Record assembly** (`Assembly`): records run date column by date
  column, in item order within each column.
- **Both parsers end to end** (`Statements`), plus a two-date, two-line
  balance sheet (`Scenarios`) and income statement (`IncomeScenario`)
  traced through every stage.

The Go runtime panics the model keeps each become a `ParseError`: a label
cell without a link, a value beyond the last date column, an "fn" cell on a
statement without date columns, a tag without a detail table or without
its type rows, an index row without the cells the lookup reads, the
`values[1]` read on a statement with fewer than two date columns, and a
date column short of values or footnotes. The other panics inside the
detail-block reads, and the one for a page without any table, are not
modelled (see "Left out").

In several places `parser.go` does something other than what a reader of
its names and comments would expect; the model follows `parser.go`:

- **Unmatched balance-sheet marker.** One would expect an empty footnote;
  the marker keeps its own text as its footnote (`Footnotes.Resolved`).
- **Footnotes follow item position.** One would expect each item to get
  the footnote of the marker on its own row; instead the k-th marker's
  footnote goes to the k-th item, whichever row carried the marker (the
  markers are the body's "th" cells in document order,
  `Context.NotesCollected`). With
  an index table present and at least one date column, fewer markers than
  items fails the parse (`Statements.BalanceSheetAccepted`,
  `Statements.IncomeAccepted`).
- **Income/cash-flow footnote text.** One would expect each marker to take
  the text of its own index row; every marker takes the text of the index
  table's last row, less the cells that spell the marker
  (`Footnotes.DescribedFootnotes`).
- **Per-column ("fn") footnotes.** They always land in the first date
  column, and each still advances the value column. So a statement with an
  "fn" cell and at least one item never parses
  (`Statements.ColumnNotesDefeatIncome`).
- **Missing index table.** It is not an error; every footnote is empty.
  Without an index table, markers are not needed at all.
- **Label classes.** Only `"pl "` and `"pl custom"` mark item labels.
- **Short and long value columns.** A column with fewer values than items
  fails. Extra values in a column are never read.

## Model

| member | source | states |
|---|---|---|
| Locator.ParseFilingSummary | parser.go:103-140 | each of the three URLs is the first manifest entry matching its category's keywords, joined under the base URL, or "" when no entry matches; stopping once all three are found changes nothing |
| Locator.FirstMatch | parser.go:113-134 | reference definition: the first entry in manifest order whose lower-cased long name contains one of the category's keywords; no earlier entry matches, and None only when no entry matches |
| Locator.FirstMatchExtend | parser.go:113-134 | after scanning one more entry, a category that was already resolved keeps its entry; an unresolved one takes the new entry exactly when it matches |
| Locator.FirstMatchStable | parser.go:135-137 | once a manifest prefix resolves a category, the answer over the whole manifest is the same, so the early exit is sound |
| Locator.BalanceSheetNeverParenthetical | parser.go:114-119 | the balance-sheet URL is "" exactly when no entry matches, and otherwise comes from an entry whose lower-cased name does not contain "parenthetical" |
| Locator.ParentheticalExample | parser.go:115 | "Consolidated Balance Sheets (Parenthetical)" is never taken for the balance sheet |
| Locator.KeywordsLowerCase | parser.go:104-106 | every keyword of every category, and "parenthetical", is already lower-case, so comparing them with the lower-cased name is case-blind |
| Locator.MatchesIgnoresCase | parser.go:113-134 | whether a name matches a category depends only on its lower-cased form |
| Locator.AnyCaseKeyword | parser.go:113-134 | a keyword spelled in any mix of upper and lower case inside a name makes it match the keyword's category (a balance-sheet name must still not be parenthetical) |
| Locator.QualifiedIncomeExample | parser.go:121-126 | "Consolidated Statements of Income (Loss)" is recognised as an income statement |
| Text.IndexOf | parser.go:177 | the first occurrence of a pattern: it occurs there, not earlier, and None exactly when it does not occur |
| Text.ReplaceFirst | parser.go:177 | with a single replacement, the first occurrence is replaced and the rest is kept; without an occurrence the string is unchanged |
| Text.LowerOccurs | parser.go:115 | an occurrence of a keyword in a name survives lower-casing of both |
| Tags.ExtractTagRoundTrip | parser.go:177 | `ExtractTag`: a tag written into the `showAR` link is read back unchanged when the link's suffix does not occur inside it early |
| Tags.ExtractQuoteFreeTag | parser.go:177 | every tag free of single quotes survives the link round trip |
| Classify.CellRoles | parser.go:175-195 | `CellEvent`: a cell is a label event exactly when its class is "pl " or "pl custom": unanchored without a link, otherwise an axis marker when the tag contains "Axis", else an abstract marker when it contains "Abstract", else an item. It is a value exactly for "nump"/"num"/"text", a marker exactly for "th", and a column note exactly for "fn" on income/cash-flow statements |
| Classify.RowEvents | parser.go:173-196 | the row's events are the classified cells in order; no event but the last ends the row, and the events stop early only after an event that ends it |
| Classify.MarkerRowAddsNoItem | parser.go:176-185 | a row whose label names an axis or an abstract yields nothing after that label and no item at or after it |
| Scan.ApplyEvent | parser.go:186-194 | one cell keeps the title, dates and column counts, touches no footnote column but the first, and advances the column index exactly on value and "fn" cells |
| Scan.TextsOfClassContents | parser.go:158-165 | one text per cell of the class, in order: the cell at position j gives the entry numbered by the same-class cells before it |
| Scan.AfterHeader | parser.go:157-169 | after the header the state has no items or markers, no axis or abstract context, and one empty value and footnote column per date; the title is the last "tl" header cell of the first row; on a balance sheet the dates are that row's "th" header cells; on an income/cash-flow statement the duration is the first row's last "th" cell and the dates are every header cell of the second row |
| Scan.HeaderThenBody | parser.go:270-291 | `StepRow`/`ScanRows`: the header takes exactly one row on a balance sheet and two on an income/cash-flow statement, and every later row goes to the body loop; a shorter table yields no dates and no items |
| Scan.HeaderFieldsKept | parser.go:266-326 | the body rows never change the title, duration or dates the header rows set |
| Scan.BodyKeepsHeader | parser.go:293-325 | once in the body, every later row leaves the phase, title, duration and dates as they were |
| Scan.ScanStatement | parser.go:155-197 | `ScanRows` from the initial state, each body row through `ApplyEvents`: a successful scan leaves parallel sequences (one tag, axis and abstract per item; one value column and one footnote column per date), and every footnote column but the first stays empty |
| Context.ContextIsInherited | parser.go:176-189 | the scan's items are exactly the item events of the body in order, and each item's axis and abstract are the tags of the last axis and abstract markers before it; the markers and the "fn" flag follow the body's cells as well |
| Context.NotesCollected | parser.go:296-324 | the collected footnote markers are the texts of the body's "th"-class data cells in document order, and the scan has seen an "fn" cell exactly when the body holds one |
| Context.NearestAxisIsLastMarker | parser.go:178-181 | the inherited axis is "" before any axis marker, and otherwise the tag of the last one |
| Context.NearestAbstractIsLastMarker | parser.go:182-185 | the inherited abstract is "" before any abstract marker, and otherwise the tag of the last one |
| Placement.RowPlacement | parser.go:171-192 | within a row, each value goes to the end of the column numbered by the value and "fn" cells before it, untouched columns stay as they were, and "fn" texts are appended to the first footnote column |
| Placement.RowAcceptedIffFits | parser.go:190-192 | a row is accepted exactly when it has no unanchored label, no value beyond the last date column, and no "fn" cell on a statement without date columns |
| Placement.OneEntryPerColumn | parser.go:191-192 | one row adds at most one value to each column, namely the value reaching it |
| Placement.StatementColumns | parser.go:292-325 | each final value column is the concatenation, row by row, of the values the body rows place in it, and the first footnote column holds all "fn" texts in order |
| Metadata.NestedMetadata | parser.go:205-211 | balance-sheet metadata succeeds exactly when every tag has a detail block with type rows, and then gives each item its own block's definition and types |
| Metadata.LatestLabelled | parser.go:336-340 | the position of the latest tag so far whose block has a "+ Details" heading: no later block up to the item has one, and None only when none has |
| Metadata.LabelledMetadata | parser.go:330-344 | income metadata succeeds exactly when every tag has a block, every heading leads to type rows, and the first block has a heading; each item keeps its own definition but takes its types from the latest headed block so far |
| Metadata.LabelledFromEntries | parser.go:336-343 | `LabelledFrom`: each entry's definition is its own block's, and its types are the latest heading's rows, or the rows carried from earlier when there is none |
| Footnotes.LastKeyed | parser.go:226-231 | the last index row whose first data cell is the marker; no later row is keyed by it |
| Footnotes.ResolveFrom | parser.go:226-231 | the lookup succeeds exactly when every index row has a data cell and the rows keyed by the marker have a next cell; the result is the last keyed row's note, or the value before the lookup |
| Footnotes.SharedFootnotes | parser.go:213-236 | without an index table there is one "" per item; with one, the lookup (`ResolveAll`) succeeds exactly when every marker is searchable, and gives one resolved note per marker |
| Footnotes.DescribeWithoutMarker | parser.go:362-367 | `Describe`: a row whose data cells never spell the marker describes as all its data cells' texts, joined in order |
| Footnotes.DescribeOnlyMarker | parser.go:362-367 | a row whose data cells all spell the marker describes as "" |
| Footnotes.DescribeFrom | parser.go:360-376 | every index row overwrites the description, so it is that of the last row, or the marker with no rows |
| Footnotes.DescribedFootnotes | parser.go:346-380 | without a table there is one "" per item; with an empty table the markers stay; otherwise each marker becomes the last row's text without the cells spelling it |
| Footnotes.SharedExample | parser.go:224-233 | with index rows "1" → "See note A" and "2" → "See note B", markers "1" and "2" resolve to their own notes |
| Footnotes.DescribedExample | parser.go:358-377 | with the same index, the income lookup gives "2See note B" for marker "1" and "See note B" for marker "2" |
| Assembly.Assemble | parser.go:239-246 | assembly succeeds exactly when every date column has a value and a footnote for every item, and then yields dates × items records |
| Assembly.AssembleLayout | parser.go:240-245 | the record of date column c and item i sits at c·|items| + i and carries that column's date, value and footnote and that item's row data and metadata |
| Assembly.PositionOf | parser.go:240-241 | every record position below dates × items belongs to exactly one date column and item |
| Assembly.PositionUnique | parser.go:240-241 | two records of different date columns or items never share a position |
| Statements.ParseBalanceSheet | parser.go:142-247 | a successful balance-sheet parse comes from a successful scan and yields dates × items records |
| Statements.BalanceSheetAccepted | parser.go:205-246 | the balance-sheet parse succeeds exactly when the scan does, every tag has a block with type rows, every marker can be looked up, and every column has a value per item (with an index table, also a marker per item) |
| Statements.BalanceSheetRecord | parser.go:239-245 | each balance-sheet record carries the filing identity, title, its column's date and value, its item's row data, its own tag's metadata, and its item's shared footnote |
| Statements.BalanceSheetWithoutIndex | parser.go:234-236 | without a footnote index table every balance-sheet record's footnote is "" |
| Statements.ParseIncomeOrCashFlowStatement | parser.go:249-400 | a successful income/cash-flow parse has at least two date columns and yields dates × items records |
| Statements.IncomeAccepted | parser.go:330-399 | the income/cash-flow parse succeeds exactly when the scan does, every tag has a block whose heading (if any) has type rows, the first tag's block has a heading, there are at least two date columns, and every column has a value per item and a footnote per item: its own "fn" notes once any were seen, else (with an index table) a marker per item |
| Statements.IncomeOrCashFlowRecord | parser.go:382-399 | each income record also carries the duration heading and the latest heading's type rows; its footnote is the per-column note when "fn" cells were seen, else the described footnote |
| Statements.ColumnNotesDefeatIncome | parser.go:317-323 | a statement whose body holds an "fn" cell and at least one item cell never parses, since only the first column collects per-column notes |
| Statements.EmptyTable | parser.go:152-246 | a first table with no rows gives a balance sheet with no records, and an income/cash-flow statement that fails for lack of two date columns |
| Scenarios.HeaderState | parser.go:157-169 | a header row with a "tl" cell and two "th" cells gives that title and those two dates, with two empty columns |
| Scenarios.LineStep | parser.go:173-196 | an item row of a linked label and two amounts appends the item and puts each amount at the end of its date's column |
| Scenarios.TwoByTwoScan | parser.go:155-197 | the two-date, two-line sheet scans to two items, in order, with values [[first values], [second values]] and empty axis and abstract context |
| Scenarios.TwoByTwoParse | parser.go:239-246 | any page that scans that way, has detail blocks for both tags and has no index table yields exactly the four records (date0, line0), (date0, line1), (date1, line0), (date1, line1) |
| Scenarios.TwoByTwoRecords | parser.go:142-247 | the two-date, two-line sheet built from plain rows parses into those four records, each with its own tag's metadata and an empty footnote |
| IncomeScenario.IncomeHeaderState | parser.go:270-291 | a title row with a "tl" and a "th" cell and a row of two date cells give that title, that duration and those two dates |
| IncomeScenario.IncomeScan | parser.go:266-326 | the two-date, two-line income statement scans to two items with their values column by column and no per-column footnote |
| IncomeScenario.IncomeParse | parser.go:382-399 | any page that scans that way, whose two tags have a "+ Details" heading with type rows and which has no index table, yields exactly four records carrying the duration, in date-major order |
| IncomeScenario.IncomeRecords | parser.go:249-400 | the two-date, two-line income statement built from plain rows parses into those four records, each with its own tag's type rows and an empty footnote |

## Left out

- HTML parsing is left out, since it belongs to the soup library. The page
  arrives already split into the first table's rows, the detail blocks and
  the index table. A tag with no block models a missing `table id=<tag>`.
- `DetailBlock.nested` stands for the balance-sheet path's reads: rows
  3–5, second cell, of the third nested div. It is None when those reads
  would panic.
- `DetailBlock.heading` stands for the last div preceded by "+ Details".
  Its `typeRows` is None when that div's table is too short.
- Panics inside the detail-block reads other than a missing table or
  missing type rows are not modelled: a detail table without its body div
  or without the definition's `p` (parser.go:206-207, 332-333), and a
  nested div with no previous sibling (parser.go:337). `DetailBlock.definition`
  is a plain string and `Heading` has no failure case, so these pages
  parse in the model.
- A page without any `table` is not represented: `Page.rows` always
  stands for an existing first table, so the Go panic at parser.go:152 and
  263 (reading the rows of a missing table) has no counterpart. The
  nearest model page, one with no rows, gives an empty balance sheet and
  an income/cash-flow error (`Statements.EmptyTable`).
- `setup.go` is not part of this model. That covers fetching pages and
  manifests, and decoding the manifest's JSON/XML into `ReportEntry` values.
- The `fmt.Println` diagnostics are left out; they do not affect the records.
- The kind of Go panic is not kept. Each becomes one `ParseError`
  constructor, and callers only see that the parse failed.
- `FullText` and `Text` both become a cell's single `text` string.
  Whitespace and nested markup inside a cell are not modelled.
- A missing `class` attribute is modelled as an empty class, which is what
  Go's map lookup yields.
- Text.Lower: lower-cases ASCII letters only. Go's `strings.ToLower` also
  maps some non-ASCII letters onto ASCII ones (U+0130, capital I with dot
  above, becomes 'i'; U+212A, the Kelvin sign, becomes 'k'), so a long name holding such a
  letter can match a keyword in Go and not in the model.
- Scenarios.TwoByTwoRecords: covers one page shape (two dates, two plain
  lines, no markers, no index table), not every page.
- IncomeScenario.IncomeRecords: covers one page shape (two dates, two plain
  lines with their own "+ Details" headings, no markers, no "fn" cells, no
  index table), not every page.

=== FILE: assembly.dfy ===
/** Record assembly: one record per date column and item, column by
    column, each combining the filing's identity, the statement's title and
    the column's date with the item's row data, metadata and footnote. */
module Assembly {
  import opened Results
  import opened Markup
  import opened Scan
  import opened Metadata

  /** The filing a statement belongs to. */
  datatype FilingContext = FilingContext(year: string, quarter: string, cik: string)

  /** One output record. `duration` is the column-group heading, which only
      income and cash-flow records carry; `abstractTag` is the enclosing
      abstract heading's tag. */
  datatype Record = Record(
    year: string,
    quarter: string,
    cik: string,
    title: string,
    date: string,
    item: string,
    value: string,
    duration: Option<string>,
    axis: string,
    abstractTag: string,
    tag: string,
    definition: string,
    dataType: string,
    balanceType: string,
    periodType: string,
    footnote: string)

  /** The parts records are assembled from: a scanned statement, one
      metadata entry per item and one footnote column per date column. */
  predicate Assemblable(st: ScanState, metas: seq<TagMetadata>, notes: seq<seq<string>>) {
    Valid(st) && |metas| == |st.items| && |notes| == |st.dates|
  }

  /** Date column `ii` holds a value and a footnote for every item. */
  predicate ColumnComplete(st: ScanState, notes: seq<seq<string>>, ii: nat)
    requires Valid(st) && |notes| == |st.dates| && ii < |st.dates|
  {
    |st.items| <= |st.values[ii]| && |st.items| <= |notes[ii]|
  }

  /** The record for date column `ii` and item `i`. */
  function RecordAt(ctx: FilingContext, st: ScanState, duration: Option<string>, metas: seq<TagMetadata>,
                    notes: seq<seq<string>>, ii: nat, i: nat): Record
    requires Assemblable(st, metas, notes)
    requires ii < |st.dates| && i < |st.items| && i < |st.values[ii]| && i < |notes[ii]|
  {
    Record(ctx.year, ctx.quarter, ctx.cik, st.title, st.dates[ii], st.items[i], st.values[ii][i], duration,
           st.axes[i], st.abstracts[i], st.tags[i], metas[i].definition, metas[i].dataType,
           metas[i].balanceType, metas[i].periodType, notes[ii][i])
  }

  /** The records of date column `ii` from item `i` on; a column short of
      values or footnotes fails. */
  function ColumnFrom(ctx: FilingContext, st: ScanState, duration: Option<string>, metas: seq<TagMetadata>,
                      notes: seq<seq<string>>, ii: nat, i: nat): (r: Result<seq<Record>, ParseError>)
    requires Assemblable(st, metas, notes) && ii < |st.dates| && i <= |st.items|
    ensures r.Ok? <==> i == |st.items| || ColumnComplete(st, notes, ii)
    ensures r.Ok? ==> |r.value| == |st.items| - i
    ensures r.Ok? ==> forall k :: i <= k < |st.items| ==>
              k < |st.values[ii]| && k < |notes[ii]| && r.value[k - i] == RecordAt(ctx, st, duration, metas, notes, ii, k)
    decreases |st.items| - i
  {
    if i == |st.items| then Ok([])
    else if i >= |st.values[ii]| then Err(ShortColumn(ii))
    else if i >= |notes[ii]| then Err(ShortFootnotes(ii))
    else
      var rest :- ColumnFrom(ctx, st, duration, metas, notes, ii, i + 1);
      Ok([RecordAt(ctx, st, duration, metas, notes, ii, i)] + rest)
  }

  /** `column` holds exactly the records of date column `c`, in item order. */
  predicate ColumnRecords(ctx: FilingContext, st: ScanState, duration: Option<string>, metas: seq<TagMetadata>,
                          notes: seq<seq<string>>, c: nat, column: seq<Record>)
    requires Assemblable(st, metas, notes) && c < |st.dates|
  {
    && |column| == |st.items|
    && forall i :: 0 <= i < |st.items| ==>
         i < |st.values[c]| && i < |notes[c]| && column[i] == RecordAt(ctx, st, duration, metas, notes, c, i)
  }

  /** The records of the first `m` date columns, one sequence per column;
      the first column short of values or footnotes fails. */
  function ColumnsUpTo(ctx: FilingContext, st: ScanState, duration: Option<string>, metas: seq<TagMetadata>,
                       notes: seq<seq<string>>, m: nat): (r: Result<seq<seq<Record>>, ParseError>)
    requires Assemblable(st, metas, notes) && m <= |st.dates|
    ensures r.Ok? <==> forall c :: 0 <= c < m ==> ColumnComplete(st, notes, c)
    ensures r.Ok? ==> |r.value| == m
    ensures r.Ok? ==> forall c :: 0 <= c < m ==> ColumnRecords(ctx, st, duration, metas, notes, c, r.value[c])
  {
    if m == 0 then Ok([])
    else
      var front :- ColumnsUpTo(ctx, st, duration, metas, notes, m - 1);
      var column :- ColumnFrom(ctx, st, duration, metas, notes, m - 1, 0);
      assert ColumnRecords(ctx, st, duration, metas, notes, m - 1, column);
      Ok(front + [column])
  }

  /** The concatenation of `cols`, in order. */
  function Flatten<T>(cols: seq<seq<T>>): seq<T> {
    if cols == [] then [] else cols[0] + Flatten(cols[1..])
  }

  /** Flattening `|cols|` columns of length `n` gives `|cols| * n` elements. */
  lemma {:induction false} FlattenLength<T>(cols: seq<seq<T>>, n: nat)
    requires forall c :: 0 <= c < |cols| ==> |cols[c]| == n
    ensures |Flatten(cols)| == |cols| * n
  {
    if cols != [] {
      FlattenLength(cols[1..], n);
      assert |cols| * n == n + (|cols| - 1) * n;
    }
  }

  /** Flattening columns of length `n` lays them out one after another:
      element `i` of column `c` lands at `c * n + i`. */
  lemma {:induction false} FlattenAt<T>(cols: seq<seq<T>>, n: nat, c: nat, i: nat)
    requires forall k :: 0 <= k < |cols| ==> |cols[k]| == n
    requires c < |cols| && i < n
    ensures c * n + i < |Flatten(cols)| && Flatten(cols)[c * n + i] == cols[c][i]
  {
    if c > 0 {
      FlattenAt(cols[1..], n, c - 1, i);
      assert c * n + i == n + ((c - 1) * n + i);
    }
  }

  /** Where the record of date column `c` and item `i` sits among the
      records of a statement with `n` items. */
  function Position(c: nat, n: nat, i: nat): nat {
    c * n + i
  }

  /** Every position below `m * n` is that of exactly one column `c < m`
      and item `i < n`. */
  lemma PositionOf(k: nat, m: nat, n: nat) returns (c: nat, i: nat)
    requires k < m * n
    ensures c < m && i < n && Position(c, n, i) == k
    ensures forall c': nat, i': nat :: c' < m && i' < n && Position(c', n, i') == k ==> c' == c && i' == i
  {
    c, i := k / n, k % n;
    forall c': nat, i': nat | c' < m && i' < n && Position(c', n, i') == k
      ensures c' == c && i' == i
    {
      PositionUnique(c, i, c', i', n);
    }
  }

  /** Two positions within columns of `n` items coincide only for the same
      column and item. */
  lemma PositionUnique(c: nat, i: nat, c': nat, i': nat, n: nat)
    requires i < n && i' < n && Position(c, n, i) == Position(c', n, i')
    ensures c == c' && i == i'
  {
    MulCancel(c, c' + 1, n);
    MulCancel(c', c + 1, n);
  }

  /** Multiplying by the same count keeps a strict order only if the
      factors were ordered. */
  lemma MulCancel(a: nat, b: nat, n: nat)
    requires a * n < b * n
    ensures a < b
  {
    if b <= a {
      MulMono(b, a, n);
    }
  }

  lemma MulMono(a: nat, b: nat, n: nat)
    requires a <= b
    ensures a * n <= b * n
  {
    assert b * n == a * n + (b - a) * n;
  }

  /** All records of a statement, date column by date column; within a
      column, in item order. A column short of values or footnotes fails. */
  function Assemble(ctx: FilingContext, st: ScanState, duration: Option<string>, metas: seq<TagMetadata>,
                    notes: seq<seq<string>>): (r: Result<seq<Record>, ParseError>)
    requires Assemblable(st, metas, notes)
    ensures r.Ok? <==> forall c :: 0 <= c < |st.dates| ==> ColumnComplete(st, notes, c)
    ensures r.Ok? ==> |r.value| == |st.dates| * |st.items|
  {
    var cols :- ColumnsUpTo(ctx, st, duration, metas, notes, |st.dates|);
    FlattenLength(cols, |st.items|);
    Ok(Flatten(cols))
  }

  /** The record of date column `c` and item `i` sits at `c * |items| + i`:
      records run column by column, in item order within each column. */
  lemma AssembleLayout(ctx: FilingContext, st: ScanState, duration: Option<string>, metas: seq<TagMetadata>,
                       notes: seq<seq<string>>, c: nat, i: nat)
    requires Assemblable(st, metas, notes) && Assemble(ctx, st, duration, metas, notes).Ok?
    requires c < |st.dates| && i < |st.items|
    ensures i < |st.values[c]| && i < |notes[c]|
    ensures Position(c, |st.items|, i) < |Assemble(ctx, st, duration, metas, notes).value|
    ensures Assemble(ctx, st, duration, metas, notes).value[Position(c, |st.items|, i)] == RecordAt(ctx, st, duration, metas, notes, c, i)
  {
    var built := ColumnsUpTo(ctx, st, duration, metas, notes, |st.dates|);
    assert built.Ok?;
    var cols := built.value;
    assert Assemble(ctx, st, duration, metas, notes) == Ok(Flatten(cols));
    forall k | 0 <= k < |cols|
      ensures |cols[k]| == |st.items|
    {
      assert ColumnRecords(ctx, st, duration, metas, notes, k, cols[k]);
    }
    assert ColumnRecords(ctx, st, duration, metas, notes, c, cols[c]);
    FlattenAt(cols, |st.items|, c, i);
  }
}

=== FILE: classify.dfy ===
/** The row classifier: turns the data (`td`) cells of one body row into
    events according to each cell's class token, and cuts the row off at
    the first cell that abandons it. */
module Classify {
  import opened Results
  import opened Text
  import opened Markup
  import opened Tags

  /** Which of the two statement parsers is running. */
  datatype Variant = BalanceSheet | IncomeOrCashFlow

  /** The role of one data cell. */
  datatype Event =
    | Item(text: string, tag: string)   // a line item with its tag
    | AxisMark(tag: string)              // a row that sets the current axis
    | AbstractMark(tag: string)          // a row that sets the current abstract
    | Value(text: string)                // one value, for the next column
    | Marker(text: string)               // a footnote marker
    | ColumnNote(text: string)           // an embedded per-column footnote
    | Unanchored                         // a label cell without a link
    | Ignored                            // any other class
  {
    /** The parser leaves the row after this cell. */
    predicate EndsRow() {
      AxisMark? || AbstractMark? || Unanchored?
    }

    /** The cell advances the column index. */
    predicate TakesSlot() {
      Value? || ColumnNote?
    }
  }

  predicate IsLabelClass(c: string) {
    c == "pl " || c == "pl custom"
  }

  predicate IsValueClass(c: string) {
    c == "nump" || c == "num" || c == "text"
  }

  const AxisWord: string := "Axis"
  const AbstractWord: string := "Abstract"

  /** The role of a data cell. A label cell's tag is tested for "Axis"
      before "Abstract"; "fn" cells are only recognised on income and
      cash-flow statements. */
  function CellEvent(v: Variant, c: Cell): Event
  {
    if IsLabelClass(c.className) then
      match c.onclick
      case None => Unanchored
      case Some(onclick) =>
        var tag := ExtractTag(onclick);
        if Contains(tag, AxisWord) then AxisMark(tag)
        else if Contains(tag, AbstractWord) then AbstractMark(tag)
        else Item(c.text, tag)
    else if IsValueClass(c.className) then Value(c.text)
    else if c.className == "th" then Marker(c.text)
    else if c.className == "fn" && v == IncomeOrCashFlow then ColumnNote(c.text)
    else Ignored
  }

  /** What `CellEvent` yields, cell class by cell class. */
  lemma CellRoles(v: Variant, c: Cell)
    ensures (CellEvent(v, c).Item? || CellEvent(v, c).AxisMark? || CellEvent(v, c).AbstractMark? || CellEvent(v, c).Unanchored?) <==> IsLabelClass(c.className)
    ensures CellEvent(v, c).Unanchored? <==> IsLabelClass(c.className) && c.onclick.None?
    ensures CellEvent(v, c).AxisMark? <==>
              IsLabelClass(c.className) && c.onclick.Some? && Contains(ExtractTag(c.onclick.value), AxisWord)
    ensures CellEvent(v, c).AbstractMark? <==>
              IsLabelClass(c.className) && c.onclick.Some? && !Contains(ExtractTag(c.onclick.value), AxisWord)
              && Contains(ExtractTag(c.onclick.value), AbstractWord)
    ensures CellEvent(v, c).Item? ==> CellEvent(v, c).text == c.text && CellEvent(v, c).tag == ExtractTag(c.onclick.value)
    ensures (CellEvent(v, c).AxisMark? || CellEvent(v, c).AbstractMark?) ==> CellEvent(v, c).tag == ExtractTag(c.onclick.value)
    ensures CellEvent(v, c).Value? <==> IsValueClass(c.className)
    ensures CellEvent(v, c).Marker? <==> c.className == "th"
    ensures CellEvent(v, c).ColumnNote? <==> v == IncomeOrCashFlow && c.className == "fn"
    ensures (CellEvent(v, c).Value? || CellEvent(v, c).Marker? || CellEvent(v, c).ColumnNote?) ==> CellEvent(v, c).text == c.text
  {
  }

  /** The events of one row's data cells: the classified cells, in order,
      up to and including the first one that ends the row. */
  function RowEvents(v: Variant, cells: seq<Cell>): (r: seq<Event>)
    ensures |r| <= |cells|
    ensures forall j :: 0 <= j < |r| ==> r[j] == CellEvent(v, cells[j])
    ensures forall j :: 0 <= j < |r| - 1 ==> !r[j].EndsRow()
    ensures |r| < |cells| ==> 0 < |r| && r[|r| - 1].EndsRow()
  {
    if cells == [] then []
    else
      var e := CellEvent(v, cells[0]);
      if e.EndsRow() then [e] else [e] + RowEvents(v, cells[1..])
  }

  /** A row that sets the axis or the abstract contributes no item, and
      nothing after its label cell. */
  lemma MarkerRowAddsNoItem(v: Variant, cells: seq<Cell>, j: nat)
    requires j < |cells| && IsLabelClass(cells[j].className) && cells[j].onclick.Some?
    requires Contains(ExtractTag(cells[j].onclick.value), AxisWord) || Contains(ExtractTag(cells[j].onclick.value), AbstractWord)
    ensures |RowEvents(v, cells)| <= j + 1
    ensures forall k :: 0 <= k < |RowEvents(v, cells)| && RowEvents(v, cells)[k].Item? ==> k < j
  {
    var r := RowEvents(v, cells);
    MarkerCell(v, cells[j]);
    EndedAt(r, j);
  }

  /** In a sequence of events where only the last may end the row, an
      event at `j` that ends the row without being an item is the last,
      and every item comes before it. */
  lemma EndedAt(r: seq<Event>, j: nat)
    requires forall k :: 0 <= k < |r| - 1 ==> !r[k].EndsRow()
    requires j < |r| ==> r[j].EndsRow() && !r[j].Item?
    ensures |r| <= j + 1
    ensures forall k :: 0 <= k < |r| && r[k].Item? ==> k < j
  {
  }

  /** A linked label cell whose tag names an axis or an abstract ends the row. */
  lemma MarkerCell(v: Variant, c: Cell)
    requires IsLabelClass(c.className) && c.onclick.Some?
    requires Contains(ExtractTag(c.onclick.value), AxisWord) || Contains(ExtractTag(c.onclick.value), AbstractWord)
    ensures CellEvent(v, c).EndsRow() && !CellEvent(v, c).Item?
  {
  }
}

=== FILE: context.dfy ===
/** The context tracker's central invariant: every item inherits the axis
    and the abstract of the nearest marker row before it in the body, or ""
    when no such marker precedes it. Stated against the stream of events
    of all body rows, independently of the fold that computes it. */
module Context {
  import opened Results
  import opened Markup
  import opened Classify
  import opened Scan

  /** The events of the body rows, row after row. */
  function BodyEvents(v: Variant, rows: seq<Row>): seq<Event> {
    if rows == [] then [] else RowEvents(v, CellsOf(rows[0], Td)) + BodyEvents(v, rows[1..])
  }

  /** The tag of the last axis marker in `evs`, or "" when there is none. */
  function NearestAxis(evs: seq<Event>): string {
    if evs == [] then ""
    else if evs[|evs| - 1].AxisMark? then evs[|evs| - 1].tag
    else NearestAxis(evs[..|evs| - 1])
  }

  /** The tag of the last abstract marker in `evs`, or "" when there is none. */
  function NearestAbstract(evs: seq<Event>): string {
    if evs == [] then ""
    else if evs[|evs| - 1].AbstractMark? then evs[|evs| - 1].tag
    else NearestAbstract(evs[..|evs| - 1])
  }

  /** The texts of the footnote marker events of `evs`, in order. */
  function MarkerTexts(evs: seq<Event>): seq<string> {
    if evs == [] then []
    else MarkerTexts(evs[..|evs| - 1]) + (if evs[|evs| - 1].Marker? then [evs[|evs| - 1].text] else [])
  }

  /** Some event of `evs` is an embedded per-column footnote ("fn" cell). */
  predicate SawNote(evs: seq<Event>) {
    exists j :: 0 <= j < |evs| && evs[j].ColumnNote?
  }

  /** The positions of the item events of `evs`, in increasing order. */
  function ItemPositions(evs: seq<Event>): (r: seq<nat>)
    ensures forall k :: 0 <= k < |r| ==> r[k] < |evs|
  {
    if evs == [] then []
    else ItemPositions(evs[..|evs| - 1]) + (if evs[|evs| - 1].Item? then [|evs| - 1] else [])
  }

  /** `NearestAxis` is the tag of the last axis marker: "" when there is no
      axis marker, and otherwise the tag of the one no other follows. */
  lemma {:induction false} NearestAxisIsLastMarker(evs: seq<Event>)
    ensures (forall q :: 0 <= q < |evs| ==> !evs[q].AxisMark?) ==> NearestAxis(evs) == ""
    ensures forall q ::
              (0 <= q < |evs| && evs[q].AxisMark? && forall q' :: q < q' < |evs| ==> !evs[q'].AxisMark?)
              ==> NearestAxis(evs) == evs[q].tag
    decreases |evs|
  {
    if evs != [] {
      var init := evs[..|evs| - 1];
      NearestAxisIsLastMarker(init);
      assert forall q :: 0 <= q < |init| ==> init[q] == evs[q];
    }
  }

  /** `NearestAbstract` is the tag of the last abstract marker, or "". */
  lemma {:induction false} NearestAbstractIsLastMarker(evs: seq<Event>)
    ensures (forall q :: 0 <= q < |evs| ==> !evs[q].AbstractMark?) ==> NearestAbstract(evs) == ""
    ensures forall q ::
              (0 <= q < |evs| && evs[q].AbstractMark? && forall q' :: q < q' < |evs| ==> !evs[q'].AbstractMark?)
              ==> NearestAbstract(evs) == evs[q].tag
    decreases |evs|
  {
    if evs != [] {
      var init := evs[..|evs| - 1];
      NearestAbstractIsLastMarker(init);
      assert forall q :: 0 <= q < |init| ==> init[q] == evs[q];
    }
  }

  /** `ItemPositions` lists every item event, and only those, in
      increasing order. */
  lemma {:induction false} ItemPositionsExact(evs: seq<Event>)
    ensures forall k :: 0 <= k < |ItemPositions(evs)| ==> evs[ItemPositions(evs)[k]].Item?
    ensures forall k, k' :: 0 <= k < k' < |ItemPositions(evs)| ==> ItemPositions(evs)[k] < ItemPositions(evs)[k']
    ensures forall p :: 0 <= p < |evs| && evs[p].Item? ==> p in ItemPositions(evs)
    decreases |evs|
  {
    if evs != [] {
      var init := evs[..|evs| - 1];
      ItemPositionsExact(init);
      assert forall q :: 0 <= q < |init| ==> init[q] == evs[q];
    }
  }

  /** `st` is the result of applying the events `evs` from the start of
      the body: its parallel sequences list the item events of `evs`, each
      with the context in force where it occurs, and its current context is
      the one in force at the end of `evs`; its markers are the marker
      texts of `evs` in order, and it has seen an "fn" cell exactly when
      `evs` holds one. */
  ghost predicate Tracks(st: ScanState, evs: seq<Event>) {
    var pos := ItemPositions(evs);
    && |st.items| == |pos| && |st.tags| == |pos| && |st.axes| == |pos| && |st.abstracts| == |pos|
    && st.currentAxis == NearestAxis(evs) && st.currentAbstract == NearestAbstract(evs)
    && st.markers == MarkerTexts(evs) && (st.sawColumnNote <==> SawNote(evs))
    && forall i :: 0 <= i < |pos| ==>
         && evs[pos[i]] == Item(st.items[i], st.tags[i])
         && st.axes[i] == NearestAxis(evs[..pos[i]])
         && st.abstracts[i] == NearestAbstract(evs[..pos[i]])
  }

  /** Appending one event leaves the earlier positions and prefixes alone. */
  lemma ExtendPrefixes(evs: seq<Event>, e: Event)
    ensures (evs + [e])[..|evs|] == evs
    ensures NearestAxis(evs + [e]) == if e.AxisMark? then e.tag else NearestAxis(evs)
    ensures NearestAbstract(evs + [e]) == if e.AbstractMark? then e.tag else NearestAbstract(evs)
    ensures ItemPositions(evs + [e]) == ItemPositions(evs) + (if e.Item? then [|evs|] else [])
    ensures forall p :: 0 <= p <= |evs| ==> (evs + [e])[..p] == evs[..p]
  {
    var ext := evs + [e];
    assert ext[..|ext| - 1] == evs;
  }

  /** Appending one event adds its text to the markers when it is one,
      and records an "fn" cell when it is one. */
  lemma ExtendNotes(evs: seq<Event>, e: Event)
    ensures MarkerTexts(evs + [e]) == MarkerTexts(evs) + (if e.Marker? then [e.text] else [])
    ensures SawNote(evs + [e]) <==> SawNote(evs) || e.ColumnNote?
  {
    var ext := evs + [e];
    assert ext[..|ext| - 1] == evs;
    if SawNote(evs) {
      var j :| 0 <= j < |evs| && evs[j].ColumnNote?;
      assert ext[j] == evs[j];
    }
    if e.ColumnNote? {
      assert ext[|evs|].ColumnNote?;
    }
    if SawNote(ext) {
      var j :| 0 <= j < |ext| && ext[j].ColumnNote?;
      assert j < |evs| ==> evs[j] == ext[j];
    }
  }

  /** One event keeps `Tracks`. */
  lemma EventTracks(st: ScanState, e: Event, col: nat, evs: seq<Event>)
    requires Tracks(st, evs)
    requires ApplyEvent(st, e, col).Ok?
    ensures Tracks(ApplyEvent(st, e, col).value.state, evs + [e])
  {
    var next := ApplyEvent(st, e, col).value.state;
    var ext := evs + [e];
    ExtendPrefixes(evs, e);
    ExtendNotes(evs, e);
    var pos := ItemPositions(evs);
    var pos' := ItemPositions(ext);
    assert forall i :: 0 <= i < |pos| ==> pos'[i] == pos[i] && ext[pos[i]] == evs[pos[i]];
    if e.Item? {
      assert next.items == st.items + [e.text] && next.tags == st.tags + [e.tag];
      assert next.axes == st.axes + [st.currentAxis] && next.abstracts == st.abstracts + [st.currentAbstract];
      assert pos'[|pos|] == |evs|;
      assert ext[..|evs|] == evs;
    } else {
      assert next.items == st.items && next.tags == st.tags;
      assert next.axes == st.axes && next.abstracts == st.abstracts;
    }
  }

  /** A row's events keep `Tracks`. */
  lemma {:induction false} EventsTrack(st: ScanState, row: seq<Event>, col: nat, evs: seq<Event>)
    requires Tracks(st, evs)
    requires ApplyEvents(st, row, col).Ok?
    ensures Tracks(ApplyEvents(st, row, col).value, evs + row)
    decreases |row|
  {
    if row == [] {
      assert evs + row == evs;
    } else {
      var next := ApplyEvent(st, row[0], col).value;
      EventTracks(st, row[0], col, evs);
      EventsTrack(next.state, row[1..], next.col, evs + [row[0]]);
      assert evs + [row[0]] + row[1..] == evs + row;
    }
  }

  /** One body row: the loop applies the row's events from column 0 and
      carries on with the remaining rows. */
  lemma BodyStep(v: Variant, st: ScanState, rows: seq<Row>)
    requires st.phase == InBody && 0 < |rows|
    requires ScanRows(v, st, rows).Ok?
    ensures ApplyEvents(st, RowEvents(v, CellsOf(rows[0], Td)), 0).Ok?
    ensures var next := ApplyEvents(st, RowEvents(v, CellsOf(rows[0], Td)), 0).value;
            next.phase == InBody && ScanRows(v, st, rows) == ScanRows(v, next, rows[1..])
  {
    assert StepRow(v, st, rows[0]) == ApplyEvents(st, RowEvents(v, CellsOf(rows[0], Td)), 0);
  }

  lemma BodyEventsSplit(v: Variant, rows: seq<Row>, evs: seq<Event>)
    requires rows != []
    ensures evs + BodyEvents(v, rows) == evs + RowEvents(v, CellsOf(rows[0], Td)) + BodyEvents(v, rows[1..])
  {
    var a, b := RowEvents(v, CellsOf(rows[0], Td)), BodyEvents(v, rows[1..]);
    assert BodyEvents(v, rows) == a + b;
    assert evs + (a + b) == (evs + a) + b;
  }

  /** The body loop keeps `Tracks`. */
  lemma {:induction false} BodyTracks(v: Variant, st: ScanState, rows: seq<Row>, evs: seq<Event>)
    requires st.phase == InBody && Tracks(st, evs)
    requires ScanRows(v, st, rows).Ok?
    ensures Tracks(ScanRows(v, st, rows).value, evs + BodyEvents(v, rows))
    decreases |rows|
  {
    if rows == [] {
      assert evs + BodyEvents(v, rows) == evs;
    } else {
      var rowEvents := RowEvents(v, CellsOf(rows[0], Td));
      BodyStep(v, st, rows);
      var next := ApplyEvents(st, rowEvents, 0).value;
      EventsTrack(st, rowEvents, 0, evs);
      BodyTracks(v, next, rows[1..], evs + rowEvents);
      BodyEventsSplit(v, rows, evs);
    }
  }

  /** Axis and abstract inheritance for a whole statement: the items of a
      successful scan are exactly the item cells of the body rows, in
      order, and each carries the tag of the nearest preceding axis marker
      and of the nearest preceding abstract marker ("" when none). The
      collected footnote markers are the marker cells of the body in
      order, and the scan has seen an "fn" cell exactly when the body
      holds one. */
  lemma ContextIsInherited(v: Variant, rows: seq<Row>)
    requires ScanStatement(v, rows).Ok?
    ensures var st := ScanStatement(v, rows).value;
            var evs := BodyEvents(v, BodyRows(v, rows));
            var pos := ItemPositions(evs);
            && |st.items| == |pos|
            && forall i :: 0 <= i < |pos| ==>
                 && evs[pos[i]] == Item(st.items[i], st.tags[i])
                 && st.axes[i] == NearestAxis(evs[..pos[i]])
                 && st.abstracts[i] == NearestAbstract(evs[..pos[i]])
    ensures var st := ScanStatement(v, rows).value;
            var evs := BodyEvents(v, BodyRows(v, rows));
            && st.markers == MarkerTexts(evs)
            && (st.sawColumnNote <==> SawNote(evs))
  {
    HeaderThenBody(v, rows);
    if HeaderRowCount(v) <= |rows| {
      var h := AfterHeader(v, rows);
      assert Tracks(h, []);
      BodyTracks(v, h, BodyRows(v, rows), []);
      assert [] + BodyEvents(v, BodyRows(v, rows)) == BodyEvents(v, BodyRows(v, rows));
    } else {
      assert BodyRows(v, rows) == [];
    }
  }

  /** Footnote collection for a whole statement: the markers are the texts
      of the body's "th"-class data cells in document order, so the k-th
      marker is the k-th such cell, and the scan has seen an "fn" cell
      exactly when the body holds one. */
  lemma NotesCollected(v: Variant, rows: seq<Row>)
    requires ScanStatement(v, rows).Ok?
    ensures ScanStatement(v, rows).value.markers == MarkerTexts(BodyEvents(v, BodyRows(v, rows)))
    ensures ScanStatement(v, rows).value.sawColumnNote <==> SawNote(BodyEvents(v, BodyRows(v, rows)))
  {
    ContextIsInherited(v, rows);
  }
}

=== FILE: footnotes.dfy ===
/** Footnote resolution against the page's footnote index table. The
    balance-sheet parser looks each marker up by the first data cell of an
    index row and takes the cell after it; the income/cash-flow parser
    replaces each marker with the text of the whole last index row. */
module Footnotes {
  import opened Results
  import opened Text
  import opened Markup

  /** The position of the first data cell of `row`. */
  function FirstData(row: Row): (r: Option<nat>)
    ensures r.Some? ==> r.value < |row| && row[r.value].kind == Td
    ensures r.Some? ==> forall k :: 0 <= k < r.value ==> row[k].kind != Td
    ensures r.None? ==> forall k :: 0 <= k < |row| ==> row[k].kind != Td
  {
    if row == [] then None
    else if row[0].kind == Td then Some(0)
    else match FirstData(row[1..])
      case Some(j) => Some(j + 1)
      case None => None
  }

  /** The key of an index row: the text of its first data cell. */
  function KeyOf(row: Row): Option<string> {
    match FirstData(row)
    case Some(j) => Some(row[j].text)
    case None => None
  }

  /** The note of an index row: the text of the cell after its first data
      cell, whatever its kind. */
  function NoteOf(row: Row): Option<string> {
    match FirstData(row)
    case Some(j) => if j + 1 < |row| then Some(row[j + 1].text) else None
    case None => None
  }

  /** An index the balance-sheet parser can search for `marker`: every row
      has a data cell, and every row keyed by `marker` has a note. */
  predicate Searchable(marker: string, rows: seq<Row>) {
    forall k :: 0 <= k < |rows| ==>
      KeyOf(rows[k]).Some? && (KeyOf(rows[k]) == Some(marker) ==> NoteOf(rows[k]).Some?)
  }

  /** The last index row keyed by `marker`. */
  function LastKeyed(marker: string, rows: seq<Row>): (r: Option<nat>)
    ensures r.Some? ==> r.value < |rows| && KeyOf(rows[r.value]) == Some(marker)
    ensures r.Some? ==> forall k :: r.value < k < |rows| ==> KeyOf(rows[k]) != Some(marker)
    ensures r.None? ==> forall k :: 0 <= k < |rows| ==> KeyOf(rows[k]) != Some(marker)
  {
    if rows == [] then None
    else match LastKeyed(marker, rows[1..])
      case Some(k) => Some(k + 1)
      case None => if KeyOf(rows[0]) == Some(marker) then Some(0) else None
  }

  /** The balance-sheet lookup of one marker, scanning `rows` in order and
      overwriting `current` on every match. */
  function ResolveFrom(marker: string, rows: seq<Row>, current: string): (r: Result<string, ParseError>)
    ensures r.Ok? <==> Searchable(marker, rows)
    ensures r.Ok? ==> r.value == match LastKeyed(marker, rows)
                                 case Some(k) => NoteOf(rows[k]).value
                                 case None => current
  {
    if rows == [] then Ok(current)
    else match FirstData(rows[0])
      case None => Err(MalformedFootnoteRow(marker))
      case Some(j) =>
        if rows[0][j].text != marker then ResolveFrom(marker, rows[1..], current)
        else if j + 1 < |rows[0]| then ResolveFrom(marker, rows[1..], rows[0][j + 1].text)
        else Err(MalformedFootnoteRow(marker))
  }

  /** What the balance-sheet parser makes of `marker`: the note of the last
      row keyed by it, or the marker itself when no row is. */
  function Resolved(marker: string, rows: seq<Row>): string
    requires Searchable(marker, rows)
  {
    match LastKeyed(marker, rows)
    case Some(k) => NoteOf(rows[k]).value
    case None => marker
  }

  function ResolveAll(markers: seq<string>, rows: seq<Row>): (r: Result<seq<string>, ParseError>)
    ensures r.Ok? <==> forall k :: 0 <= k < |markers| ==> Searchable(markers[k], rows)
    ensures r.Ok? ==> |r.value| == |markers|
    ensures r.Ok? ==> forall k :: 0 <= k < |markers| ==> r.value[k] == Resolved(markers[k], rows)
  {
    if markers == [] then Ok([])
    else
      var first :- ResolveFrom(markers[0], rows, markers[0]);
      var rest :- ResolveAll(markers[1..], rows);
      Ok([first] + rest)
  }

  /** Balance-sheet footnotes: without an index table, one empty footnote
      per item; with one, each collected marker resolved in turn. */
  function SharedFootnotes(markers: seq<string>, table: Option<seq<Row>>, itemCount: nat): (r: Result<seq<string>, ParseError>)
    ensures table.None? ==> r.Ok? && |r.value| == itemCount && forall k :: 0 <= k < itemCount ==> r.value[k] == ""
    ensures table.Some? ==>
              (r.Ok? <==> forall k :: 0 <= k < |markers| ==> Searchable(markers[k], table.value))
    ensures table.Some? && r.Ok? ==>
              |r.value| == |markers| && forall k :: 0 <= k < |markers| ==> r.value[k] == Resolved(markers[k], table.value)
  {
    match table
    case None => Ok(seq(itemCount, _ => ""))
    case Some(rows) => ResolveAll(markers, rows)
  }

  /** The data cells of `row` whose text is not `marker`, in order. */
  function DataCellsExcept(row: Row, marker: string): seq<Cell> {
    if row == [] then []
    else (if row[0].kind == Td && row[0].text != marker then [row[0]] else []) + DataCellsExcept(row[1..], marker)
  }

  /** The text of an index row as the income/cash-flow parser reads it: the
      texts of its data cells in order, leaving out those that spell the
      marker. */
  function Describe(row: Row, marker: string): string {
    Join(Texts(DataCellsExcept(row, marker)))
  }

  /** A row whose data cells all spell the marker describes as "". */
  lemma {:induction false} DescribeOnlyMarker(row: Row, marker: string)
    requires forall k :: 0 <= k < |row| && row[k].kind == Td ==> row[k].text == marker
    ensures Describe(row, marker) == ""
  {
    OnlyMarkerKeepsNothing(row, marker);
    assert Texts([]) == [];
  }

  lemma {:induction false} OnlyMarkerKeepsNothing(row: Row, marker: string)
    requires forall k :: 0 <= k < |row| && row[k].kind == Td ==> row[k].text == marker
    ensures DataCellsExcept(row, marker) == []
  {
    if row != [] {
      OnlyMarkerKeepsNothing(row[1..], marker);
    }
  }

  /** A row with no data cell spelling the marker describes as all its
      data cells' texts joined in order. */
  lemma {:induction false} DescribeWithoutMarker(row: Row, marker: string)
    requires forall k :: 0 <= k < |row| && row[k].kind == Td ==> row[k].text != marker
    ensures Describe(row, marker) == Join(Texts(CellsOf(row, Td)))
  {
    KeptCellsWithoutMarker(row, marker);
  }

  lemma {:induction false} KeptCellsWithoutMarker(row: Row, marker: string)
    requires forall k :: 0 <= k < |row| && row[k].kind == Td ==> row[k].text != marker
    ensures DataCellsExcept(row, marker) == CellsOf(row, Td)
  {
    if row != [] {
      KeptCellsWithoutMarker(row[1..], marker);
    }
  }

  /** The income/cash-flow lookup of one marker: every index row
      overwrites the result, so only the last row counts. */
  function DescribeFrom(marker: string, rows: seq<Row>, current: string): (r: string)
    ensures rows == [] ==> r == current
    ensures rows != [] ==> r == Describe(rows[|rows| - 1], marker)
  {
    if rows == [] then current
    else DescribeFrom(marker, rows[1..], Describe(rows[0], marker))
  }

  /** Income/cash-flow footnotes: without an index table, one empty
      footnote per item; with one, every marker is replaced by the text of
      the table's last row, less the cells spelling that marker. */
  function DescribedFootnotes(markers: seq<string>, table: Option<seq<Row>>, itemCount: nat): (r: seq<string>)
    ensures table.None? ==> |r| == itemCount && forall k :: 0 <= k < itemCount ==> r[k] == ""
    ensures table.Some? ==> |r| == |markers|
    ensures table == Some([]) ==> r == markers
    ensures table.Some? && table.value != [] ==>
              forall k :: 0 <= k < |markers| ==> r[k] == Describe(table.value[|table.value| - 1], markers[k])
  {
    match table
    case None => seq(itemCount, _ => "")
    case Some(rows) => seq(|markers|, k requires 0 <= k < |markers| => DescribeFrom(markers[k], rows, markers[k]))
  }

  /** A two-entry index: "1" for note A, then "2" for note B. */
  const ExampleIndex: seq<Row> := [
    [Cell(Td, "", "1", None), Cell(Td, "", "See note A", None)],
    [Cell(Td, "", "2", None), Cell(Td, "", "See note B", None)]
  ]

  /** The balance-sheet lookup finds each marker's own note. */
  lemma SharedExample()
    ensures SharedFootnotes(["1", "2"], Some(ExampleIndex), 2) == Ok(["See note A", "See note B"])
  {
    assert FirstData(ExampleIndex[0]) == Some(0);
    assert FirstData(ExampleIndex[1]) == Some(0);
    assert KeyOf(ExampleIndex[0]) == Some("1");
    assert KeyOf(ExampleIndex[1]) == Some("2");
    assert NoteOf(ExampleIndex[0]) == Some("See note A");
    assert NoteOf(ExampleIndex[1]) == Some("See note B");
    assert LastKeyed("1", ExampleIndex) == Some(0);
    assert LastKeyed("2", ExampleIndex) == Some(1);
    assert Searchable("1", ExampleIndex);
    assert Searchable("2", ExampleIndex);
    var r := ResolveAll(["1", "2"], ExampleIndex);
    assert r.Ok?;
    assert r.value[0] == "See note A";
    assert r.value[1] == "See note B";
    assert r.value == ["See note A", "See note B"];
    assert SharedFootnotes(["1", "2"], Some(ExampleIndex), 2) == r;
  }

  /** The income/cash-flow lookup describes every marker by the last row:
      marker "1" gets that row's key glued to its note. */
  lemma DescribedExample()
    ensures DescribedFootnotes(["1", "2"], Some(ExampleIndex), 2) == ["2See note B", "See note B"]
  {
    LastRowDescribes();
    var r := DescribedFootnotes(["1", "2"], Some(ExampleIndex), 2);
    assert r[0] == Describe(ExampleIndex[1], "1");
    assert r[1] == Describe(ExampleIndex[1], "2");
  }

  /** The last index row described for each marker: the other marker's
      key is kept, the row's own key is dropped. */
  lemma LastRowDescribes()
    ensures Describe(ExampleIndex[1], "1") == "2See note B"
    ensures Describe(ExampleIndex[1], "2") == "See note B"
  {
    var last := ExampleIndex[1];
    assert DataCellsExcept(last, "1") == last by {
      assert DataCellsExcept(last[1..], "1") == [last[1]];
    }
    assert DataCellsExcept(last, "2") == [last[1]] by {
      assert DataCellsExcept(last[1..], "2") == [last[1]];
    }
    assert Describe(last, "1") == "2See note B" by {
      assert Texts(last) == ["2", "See note B"];
      assert Join(["2", "See note B"]) == "2" + Join(["See note B"]);
    }
    assert Describe(last, "2") == "See note B" by {
      assert Texts([last[1]]) == ["See note B"];
    }
  }
}

=== FILE: income_scenario.dfy ===
/** A small income statement traced through the whole parser: a title row
    with the title and the duration heading, a row with two dates, then
    two item rows, each a linked label followed by one value per date,
    with no axis or abstract markers, no "fn" cells and no footnote index
    table. */
module IncomeScenario {
  import opened Results
  import opened Markup
  import opened Classify
  import opened Scan
  import opened Metadata
  import opened Assembly
  import opened Statements
  import opened Scenarios

  function TitleRow(title: string, duration: string): Row {
    [Cell(Th, "tl", title, None), Cell(Th, "th", duration, None)]
  }

  function DatesRow(d0: string, d1: string): Row {
    [Cell(Th, "th", d0, None), Cell(Th, "th", d1, None)]
  }

  function IncomePage(title: string, duration: string, d0: string, d1: string, l0: Line, l1: Line,
                      details: map<string, DetailBlock>): Page {
    Page([TitleRow(title, duration), DatesRow(d0, d1), LineRow(l0), LineRow(l1)], details, None)
  }

  /** A detail block with a "+ Details" heading over a table with type rows. */
  predicate Headed(block: DetailBlock) {
    block.heading.DetailsHeading? && block.heading.typeRows.Some?
  }

  /** The two header rows supply the title, the duration and the two dates. */
  lemma IncomeHeaderState(rows: seq<Row>, title: string, duration: string, d0: string, d1: string)
    requires 2 <= |rows| && rows[0] == TitleRow(title, duration) && rows[1] == DatesRow(d0, d1)
    ensures var h := AfterHeader(IncomeOrCashFlow, rows);
            && h.title == title && h.duration == duration && h.dates == [d0, d1] && !h.sawColumnNote
            && h.values == [[], []] && h.items == [] && h.tags == [] && h.axes == [] && h.abstracts == []
  {
    OnlyOfKind(rows[0], Th);
    OnlyOfKind(rows[1], Th);
    assert LastText(rows[0], "tl", "") == title;
    assert LastText(rows[0], "th", "") == duration;
    assert Texts(rows[1]) == [d0, d1];
  }

  /** What the scan of a two-date, two-line income statement yields. */
  predicate ScannedIncome(st: ScanState, title: string, duration: string, d0: string, d1: string, l0: Line, l1: Line) {
    ScannedTwoByTwo(st, title, d0, d1, l0, l1) && st.duration == duration && !st.sawColumnNote
  }

  /** Scanning collects both items, in order, each value in its date's
      column, and no per-column footnote. */
  lemma IncomeScan(title: string, duration: string, d0: string, d1: string, l0: Line, l1: Line,
                   details: map<string, DetailBlock>)
    requires PlainTag(l0.tag) && PlainTag(l1.tag)
    ensures var rows := IncomePage(title, duration, d0, d1, l0, l1, details).rows;
            && ScanStatement(IncomeOrCashFlow, rows).Ok?
            && ScannedIncome(ScanStatement(IncomeOrCashFlow, rows).value, title, duration, d0, d1, l0, l1)
  {
    var rows := IncomePage(title, duration, d0, d1, l0, l1, details).rows;
    HeaderThenLines(rows, l0, l1);
    IncomeHeaderState(rows, title, duration, d0, d1);
    var h := AfterHeader(IncomeOrCashFlow, rows);
    var s2 := ScanTwoLines(IncomeOrCashFlow, h, l0, l1);
    assert ScanStatement(IncomeOrCashFlow, rows) == Ok(s2);
    TwoLines(h, l0, l1);
  }

  /** After the two header rows, the body loop sees the two item rows. */
  lemma HeaderThenLines(rows: seq<Row>, l0: Line, l1: Line)
    requires |rows| == 4 && rows[2] == LineRow(l0) && rows[3] == LineRow(l1)
    ensures ScanStatement(IncomeOrCashFlow, rows) ==
            ScanRows(IncomeOrCashFlow, AfterHeader(IncomeOrCashFlow, rows), [LineRow(l0), LineRow(l1)])
  {
    HeaderThenBody(IncomeOrCashFlow, rows);
    var h := AfterHeader(IncomeOrCashFlow, rows);
    assert BodyRows(IncomeOrCashFlow, rows) == rows[2..] == [LineRow(l0), LineRow(l1)];
    assert ScanStatement(IncomeOrCashFlow, rows) == ScanRows(IncomeOrCashFlow, h, rows[2..]);
  }

  /** A page whose scan yields two dates and two lines, both tags with a
      "+ Details" heading over type rows, no "fn" cell and no index table,
      parses into four records. */
  lemma IncomeAcceptedTwoByTwo(page: Page, ctx: FilingContext, title: string, duration: string,
                               d0: string, d1: string, l0: Line, l1: Line)
    requires ScanStatement(IncomeOrCashFlow, page.rows).Ok?
    requires ScannedIncome(ScanStatement(IncomeOrCashFlow, page.rows).value, title, duration, d0, d1, l0, l1)
    requires l0.tag in page.details && Headed(page.details[l0.tag])
    requires l1.tag in page.details && Headed(page.details[l1.tag])
    requires page.footnoteTable.None?
    ensures ParseIncomeOrCashFlowStatement(page, ctx).Ok? && |ParseIncomeOrCashFlowStatement(page, ctx).value| == 4
  {
    var st := ScanStatement(IncomeOrCashFlow, page.rows).value;
    forall i | 0 <= i < |st.tags|
      ensures st.tags[i] in page.details && page.details[st.tags[i]].heading != DetailsHeading(None)
    {
      assert st.tags[i] == l0.tag || st.tags[i] == l1.tag;
    }
    forall c | 0 <= c < |st.dates|
      ensures |st.items| <= |st.values[c]|
    {
      assert |st.values[c]| == 2;
    }
    IncomeAccepted(page, ctx);
    assert |st.dates| == 2 && |st.items| == 2;
    assert |st.dates| * |st.items| == 4;
  }

  /** The income record the statement yields for one date and one item line. */
  function IncomeExpected(ctx: FilingContext, title: string, duration: string, date: string, l: Line, value: string,
                          block: DetailBlock): Record
    requires Headed(block)
  {
    var types := block.heading.typeRows.value;
    Record(ctx.year, ctx.quarter, ctx.cik, title, date, l.item, value, Some(duration), "", "", l.tag, block.definition,
           types.dataType, types.balanceType, types.periodType, "")
  }

  /** The income record at date column `c` and item `i` is the expected
      one when the scan put `date`, the line `l` (outside any axis or
      abstract, with its own "+ Details" heading) and `value` there, saw no
      "fn" cell, and there is no index table. */
  lemma IncomeCell(page: Page, ctx: FilingContext, c: nat, i: nat, date: string, l: Line, value: string)
    requires ParseIncomeOrCashFlowStatement(page, ctx).Ok? && page.footnoteTable.None?
    requires l.tag in page.details && Headed(page.details[l.tag])
    requires var st := ScanStatement(IncomeOrCashFlow, page.rows).value;
             && c < |st.dates| && i < |st.items| && i < |st.values[c]| && !st.sawColumnNote
             && st.dates[c] == date && st.items[i] == l.item && st.tags[i] == l.tag
             && st.axes[i] == "" && st.abstracts[i] == "" && st.values[c][i] == value
    ensures var st := ScanStatement(IncomeOrCashFlow, page.rows).value;
            && Position(c, |st.items|, i) < |ParseIncomeOrCashFlowStatement(page, ctx).value|
            && ParseIncomeOrCashFlowStatement(page, ctx).value[Position(c, |st.items|, i)] ==
                 IncomeExpected(ctx, st.title, st.duration, date, l, value, page.details[l.tag])
  {
    var st := ScanStatement(IncomeOrCashFlow, page.rows).value;
    IncomeOrCashFlowRecord(page, ctx, c, i);
    assert LatestLabelled(page.details, st.tags, i) == Some(i);
  }

  /** Any page whose scan yields two dates and two lines with headed tags,
      no "fn" cell, and which has no index table, gives exactly four
      records carrying the duration: the first date's two items, then the
      second date's. */
  lemma IncomeParse(page: Page, ctx: FilingContext, title: string, duration: string,
                    d0: string, d1: string, l0: Line, l1: Line)
    requires ScanStatement(IncomeOrCashFlow, page.rows).Ok?
    requires ScannedIncome(ScanStatement(IncomeOrCashFlow, page.rows).value, title, duration, d0, d1, l0, l1)
    requires l0.tag in page.details && Headed(page.details[l0.tag])
    requires l1.tag in page.details && Headed(page.details[l1.tag])
    requires page.footnoteTable.None?
    ensures ParseIncomeOrCashFlowStatement(page, ctx) == Ok([
      IncomeExpected(ctx, title, duration, d0, l0, l0.first, page.details[l0.tag]),
      IncomeExpected(ctx, title, duration, d0, l1, l1.first, page.details[l1.tag]),
      IncomeExpected(ctx, title, duration, d1, l0, l0.second, page.details[l0.tag]),
      IncomeExpected(ctx, title, duration, d1, l1, l1.second, page.details[l1.tag])])
  {
    var r := ParseIncomeOrCashFlowStatement(page, ctx);
    IncomeAcceptedTwoByTwo(page, ctx, title, duration, d0, d1, l0, l1);
    IncomeCell(page, ctx, 0, 0, d0, l0, l0.first);
    IncomeCell(page, ctx, 0, 1, d0, l1, l1.first);
    IncomeCell(page, ctx, 1, 0, d1, l0, l0.second);
    IncomeCell(page, ctx, 1, 1, d1, l1, l1.second);
    FourRecords(r.value);
  }

  /** The two-date, two-line income statement built from plain rows parses
      into its four records, each with the duration heading, its own tag's
      type rows and an empty footnote. */
  lemma IncomeRecords(ctx: FilingContext, title: string, duration: string, d0: string, d1: string, l0: Line, l1: Line,
                      details: map<string, DetailBlock>)
    requires PlainTag(l0.tag) && PlainTag(l1.tag)
    requires l0.tag in details && Headed(details[l0.tag])
    requires l1.tag in details && Headed(details[l1.tag])
    ensures ParseIncomeOrCashFlowStatement(IncomePage(title, duration, d0, d1, l0, l1, details), ctx) == Ok([
      IncomeExpected(ctx, title, duration, d0, l0, l0.first, details[l0.tag]),
      IncomeExpected(ctx, title, duration, d0, l1, l1.first, details[l1.tag]),
      IncomeExpected(ctx, title, duration, d1, l0, l0.second, details[l0.tag]),
      IncomeExpected(ctx, title, duration, d1, l1, l1.second, details[l1.tag])])
  {
    IncomeScan(title, duration, d0, d1, l0, l1, details);
    IncomeParse(IncomePage(title, duration, d0, d1, l0, l1, details), ctx, title, duration, d0, d1, l0, l1);
  }
}

=== FILE: locator.dfy ===
/** The report locator: picks the balance sheet, income statement and
    cash-flow statement out of a filing's report manifest by
    case-insensitive keyword matching on each report's long name. */
module Locator {
  import opened Results
  import opened Text

  /** The two fields of a manifest report entry the locator reads. */
  datatype ReportEntry = ReportEntry(longName: string, htmlFileName: string)

  datatype Category = BalanceSheet | IncomeStatement | CashFlowStatement

  const BalanceSheetNames: seq<string> :=
    ["balance sheet", "statements of financial condition", "statements of condition"]
  const IncomeStatementNames: seq<string> :=
    ["statements of income", "statements of operation", "statement of income", "statements of earnings",
     "statements of comprehensive loss", "statement of operations and comprehensive loss"]
  const CashFlowStatementNames: seq<string> :=
    ["statements of cash flow", "statement of cash flow"]

  /** Supplemental tables that must never be taken for the balance sheet. */
  const Parenthetical: string := "parenthetical"

  function Keywords(cat: Category): seq<string> {
    match cat
    case BalanceSheet => BalanceSheetNames
    case IncomeStatement => IncomeStatementNames
    case CashFlowStatement => CashFlowStatementNames
  }

  /** A report belongs to `cat` when its lower-cased long name contains one
      of the category's keywords; a balance-sheet candidate must in
      addition not be a parenthetical table. */
  predicate Matches(cat: Category, longName: string) {
    var name := Lower(longName);
    && (exists k :: 0 <= k < |Keywords(cat)| && Contains(name, Keywords(cat)[k]))
    && (cat == BalanceSheet ==> !Contains(name, Parenthetical))
  }

  /** Every keyword, and the parenthetical marker, is already lower-case,
      so lower-casing the name alone makes the comparison case-blind. */
  lemma KeywordsLowerCase(cat: Category)
    ensures forall k :: 0 <= k < |Keywords(cat)| ==> Lower(Keywords(cat)[k]) == Keywords(cat)[k]
    ensures Lower(Parenthetical) == Parenthetical
  {
    LowerWord();
    match cat
    case BalanceSheet => BalanceSheetNamesLower();
    case IncomeStatement => IncomeStatementNamesLower();
    case CashFlowStatement => CashFlowStatementNamesLower();
  }

  lemma BalanceSheetNamesLower()
    ensures forall k :: 0 <= k < |BalanceSheetNames| ==> Lower(BalanceSheetNames[k]) == BalanceSheetNames[k]
  {
    ShortBalanceSheetNamesLower();
    FinancialConditionLower();
  }

  lemma IncomeStatementNamesLower()
    ensures forall k :: 0 <= k < |IncomeStatementNames| ==> Lower(IncomeStatementNames[k]) == IncomeStatementNames[k]
  {
    IncomeNamesLower();
    OperationNamesLower();
    ComprehensiveLossLower();
    LongestIncomeNameLower();
  }

  lemma CashFlowStatementNamesLower()
    ensures forall k :: 0 <= k < |CashFlowStatementNames| ==> Lower(CashFlowStatementNames[k]) == CashFlowStatementNames[k]
  {
    CashFlowNamesLower();
  }

  lemma ShortBalanceSheetNamesLower()
    ensures Lower("balance sheet") == "balance sheet"
    ensures Lower("statements of condition") == "statements of condition"
  {
  }

  lemma FinancialConditionLower()
    ensures Lower("statements of financial condition") == "statements of financial condition"
  {
  }

  lemma IncomeNamesLower()
    ensures Lower("statements of income") == "statements of income"
    ensures Lower("statement of income") == "statement of income"
  {
  }

  lemma OperationNamesLower()
    ensures Lower("statements of operation") == "statements of operation"
    ensures Lower("statements of earnings") == "statements of earnings"
  {
  }

  lemma ComprehensiveLossLower()
    ensures Lower("statements of comprehensive loss") == "statements of comprehensive loss"
  {
  }

  lemma LongestIncomeNameLower()
    ensures Lower("statement of operations and comprehensive loss") == "statement of operations and comprehensive loss"
  {
    var front, back := "statement of operations", " and comprehensive loss";
    assert "statement of operations and comprehensive loss" == front + back;
    LowerConcat(front, back);
    OperationsLower();
  }

  lemma OperationsLower()
    ensures Lower("statement of operations") == "statement of operations"
    ensures Lower(" and comprehensive loss") == " and comprehensive loss"
  {
  }

  lemma CashFlowNamesLower()
    ensures Lower("statements of cash flow") == "statements of cash flow"
    ensures Lower("statement of cash flow") == "statement of cash flow"
  {
  }

  /** Whether a name matches depends only on its lower-cased form: two
      names that differ only in the case of ASCII letters match alike. */
  lemma MatchesIgnoresCase(cat: Category, longName: string)
    ensures Matches(cat, longName) <==> Matches(cat, Lower(longName))
  {
    LowerIdempotent(longName);
  }

  /** A keyword spelled in any mix of cases inside the name makes the name
      match (a balance-sheet name must still not be parenthetical). */
  lemma AnyCaseKeyword(cat: Category, longName: string, word: string, k: nat, i: nat)
    requires k < |Keywords(cat)| && Lower(word) == Keywords(cat)[k] && OccursAt(longName, word, i)
    requires cat == BalanceSheet ==> !Contains(Lower(longName), Parenthetical)
    ensures Matches(cat, longName)
  {
    LowerOccurs(longName, word, i);
  }

  /** The first entry at or after `k` that matches `cat`. */
  function FirstMatchFrom(reports: seq<ReportEntry>, cat: Category, k: nat): (r: Option<nat>)
    decreases |reports| - k
    ensures r.Some? ==> k <= r.value < |reports| && Matches(cat, reports[r.value].longName)
    ensures r.Some? ==> forall j :: k <= j < r.value ==> !Matches(cat, reports[j].longName)
    ensures r.None? ==> forall j :: k <= j < |reports| ==> !Matches(cat, reports[j].longName)
  {
    if k >= |reports| then None
    else if Matches(cat, reports[k].longName) then Some(k)
    else FirstMatchFrom(reports, cat, k + 1)
  }

  /** Reference definition: the position of the first entry in manifest
      order that matches `cat`. */
  function FirstMatch(reports: seq<ReportEntry>, cat: Category): (r: Option<nat>)
    ensures r.Some? ==> r.value < |reports| && Matches(cat, reports[r.value].longName)
    ensures r.Some? ==> forall j :: 0 <= j < r.value ==> !Matches(cat, reports[j].longName)
    ensures r.None? ==> forall j :: 0 <= j < |reports| ==> !Matches(cat, reports[j].longName)
  {
    FirstMatchFrom(reports, cat, 0)
  }

  /** The URL the locator should report for `cat`: the first matching
      entry's file under `base`, or "" when no entry matches. */
  function UrlFor(reports: seq<ReportEntry>, base: string, cat: Category): string {
    match FirstMatch(reports, cat)
    case None => ""
    case Some(i) => base + "/" + reports[i].htmlFileName
  }

  /** The first match is unique: the contract of `FirstMatch` pins it down. */
  lemma FirstMatchUnique(reports: seq<ReportEntry>, cat: Category, i: nat)
    requires i < |reports| && Matches(cat, reports[i].longName)
    requires forall j :: 0 <= j < i ==> !Matches(cat, reports[j].longName)
    ensures FirstMatch(reports, cat) == Some(i)
  {
  }

  /** Scanning one more entry: a category already resolved keeps its entry;
      otherwise the new entry wins exactly when it matches. */
  lemma FirstMatchExtend(reports: seq<ReportEntry>, cat: Category, k: nat)
    requires k < |reports|
    ensures FirstMatch(reports[..k + 1], cat) ==
              if FirstMatch(reports[..k], cat).Some? then FirstMatch(reports[..k], cat)
              else if Matches(cat, reports[k].longName) then Some(k)
              else None
  {
    var pre, ext := reports[..k], reports[..k + 1];
    assert forall j :: 0 <= j < k ==> ext[j] == pre[j];
    match FirstMatch(pre, cat)
    case Some(i) =>
      FirstMatchUnique(ext, cat, i);
    case None =>
      if Matches(cat, reports[k].longName) {
        FirstMatchUnique(ext, cat, k);
      } else {
        assert forall j :: 0 <= j < k + 1 ==> !Matches(cat, ext[j].longName);
      }
  }

  /** Once a prefix of the manifest has resolved a category, no later entry
      changes the answer: stopping early agrees with a full scan. */
  lemma FirstMatchStable(reports: seq<ReportEntry>, cat: Category, k: nat)
    requires k <= |reports|
    requires FirstMatch(reports[..k], cat).Some?
    ensures FirstMatch(reports, cat) == FirstMatch(reports[..k], cat)
  {
    var i := FirstMatch(reports[..k], cat).value;
    assert forall j :: 0 <= j <= i ==> reports[..k][j] == reports[j];
    FirstMatchUnique(reports, cat, i);
  }

  /** `ParseFilingSummary`: one pass over the manifest in order, resolving
      each category at its first match and stopping as soon as all three
      are resolved. Each URL is the first matching entry's file under
      `base`, or "" when nothing matched. */
  method ParseFilingSummary(reports: seq<ReportEntry>, base: string)
    returns (balanceSheetUrl: string, incomeStatementUrl: string, cashFlowStatementUrl: string)
    ensures balanceSheetUrl == UrlFor(reports, base, BalanceSheet)
    ensures incomeStatementUrl == UrlFor(reports, base, IncomeStatement)
    ensures cashFlowStatementUrl == UrlFor(reports, base, CashFlowStatement)
  {
    var balanceSheetFound, incomeStatementFound, cashFlowStatementFound := false, false, false;
    balanceSheetUrl, incomeStatementUrl, cashFlowStatementUrl := "", "", "";
    var k := 0;
    while k < |reports|
      invariant 0 <= k <= |reports|
      invariant balanceSheetFound == FirstMatch(reports[..k], BalanceSheet).Some?
      invariant incomeStatementFound == FirstMatch(reports[..k], IncomeStatement).Some?
      invariant cashFlowStatementFound == FirstMatch(reports[..k], CashFlowStatement).Some?
      invariant balanceSheetUrl == UrlFor(reports[..k], base, BalanceSheet)
      invariant incomeStatementUrl == UrlFor(reports[..k], base, IncomeStatement)
      invariant cashFlowStatementUrl == UrlFor(reports[..k], base, CashFlowStatement)
    {
      var report := reports[k];
      FirstMatchExtend(reports, BalanceSheet, k);
      FirstMatchExtend(reports, IncomeStatement, k);
      FirstMatchExtend(reports, CashFlowStatement, k);
      if !balanceSheetFound && Matches(BalanceSheet, report.longName) {
        balanceSheetFound := true;
        balanceSheetUrl := base + "/" + report.htmlFileName;
      }
      if !incomeStatementFound && Matches(IncomeStatement, report.longName) {
        incomeStatementFound := true;
        incomeStatementUrl := base + "/" + report.htmlFileName;
      }
      if !cashFlowStatementFound && Matches(CashFlowStatement, report.longName) {
        cashFlowStatementFound := true;
        cashFlowStatementUrl := base + "/" + report.htmlFileName;
      }
      k := k + 1;
      if balanceSheetFound && incomeStatementFound && cashFlowStatementFound {
        FirstMatchStable(reports, BalanceSheet, k);
        FirstMatchStable(reports, IncomeStatement, k);
        FirstMatchStable(reports, CashFlowStatement, k);
        break;
      }
    }
    assert reports[..k] == reports || (balanceSheetFound && incomeStatementFound && cashFlowStatementFound);
  }

  /** The balance-sheet URL never comes from a parenthetical table, and it
      is always the first entry whose name matches a keyword. */
  lemma BalanceSheetNeverParenthetical(reports: seq<ReportEntry>, base: string)
    ensures UrlFor(reports, base, BalanceSheet) == "" <==> forall j :: 0 <= j < |reports| ==> !Matches(BalanceSheet, reports[j].longName)
    ensures UrlFor(reports, base, BalanceSheet) != "" ==>
              exists i :: 0 <= i < |reports| && UrlFor(reports, base, BalanceSheet) == base + "/" + reports[i].htmlFileName
                          && !Contains(Lower(reports[i].longName), Parenthetical)
  {
  }

  /** A parenthetical balance sheet, the supplemental table that follows
      the statement in a filing's manifest, is never taken for the
      balance sheet. */
  lemma ParentheticalExample()
    ensures !Matches(BalanceSheet, "Consolidated Balance Sheets (Parenthetical)")
  {
    var s := "Consolidated Balance Sheets (Parenthetical)";
    assert OccursAt(s, "Parenthetical", 29);
    LowerOccurs(s, "Parenthetical", 29);
    LowerWord();
  }

  lemma LowerIncomeWord()
    ensures Lower("Statements of Income") == IncomeStatementNames[0]
  {
  }

  lemma LowerWord()
    ensures Lower("Parenthetical") == Parenthetical
  {
  }

  lemma IncomeWordInTitle()
    ensures OccursAt("Consolidated Statements of Income (Loss)", "Statements of Income", 13)
  {
    assert "Consolidated Statements of Income (Loss)" == "Consolidated " + "Statements of Income" + " (Loss)";
    OccursBetween("Consolidated ", "Statements of Income", " (Loss)");
  }

  /** A qualified title is still recognised as an income statement. */
  lemma QualifiedIncomeExample()
    ensures Matches(IncomeStatement, "Consolidated Statements of Income (Loss)")
  {
    var t, w := "Consolidated Statements of Income (Loss)", "Statements of Income";
    IncomeWordInTitle();
    LowerOccurs(t, w, 13);
    LowerIncomeWord();
    assert Contains(Lower(t), Keywords(IncomeStatement)[0]);
  }
}

=== FILE: markup.dfy ===
/** The abstract statement page the parser reads. The HTML tree and its
    query calls are replaced by the data they deliver: the rows of the
    first table (each a sequence of header and data cells in document
    order), the per-tag detail blocks, and the footnote index table. */
module Markup {
  import opened Results

  /** `th` or `td`: the header phase reads only `th` cells, the body phase
      only `td` cells. */
  datatype Kind = Th | Td

  /** One table cell: its element kind, its `class` attribute (`className`) ("" when
      absent), its full text, and the `onclick` attribute of its inline
      link: `None` when the cell has no `a` element, `Some("")` when the
      link has no `onclick`. */
  datatype Cell = Cell(kind: Kind, className: string, text: string, onclick: Option<string>)

  type Row = seq<Cell>

  /** The three type fields of a tag's detail block. */
  datatype TypeInfo = TypeInfo(dataType: string, balanceType: string, periodType: string)

  /** The last "+ Details" heading of a detail block, if any, and the type
      rows in the table under it (`None` when that table is too short). */
  datatype Heading = NoHeading | DetailsHeading(typeRows: Option<TypeInfo>)

  /** What the detail sub-table for one tag yields: its definition text,
      the type rows found at the fixed position the balance-sheet parser
      reads (`nested`, `None` when they are absent), and the "+ Details"
      heading the income/cash-flow parser reads. */
  datatype DetailBlock = DetailBlock(definition: string, nested: Option<TypeInfo>, heading: Heading)

  /** One rendered statement page. `details` holds the detail block for
      each tag whose sub-table exists; `footnoteTable` the rows of the
      `outerFootnotes` table, if the page has one. */
  datatype Page = Page(rows: seq<Row>, details: map<string, DetailBlock>, footnoteTable: Option<seq<Row>>)

  /** Why a page could not be parsed; each one is a point at which
      parser.go would stop with a runtime panic. */
  datatype ParseError =
    | MissingAnchor            // a label cell without an inline link
    | ColumnOverflow(column: nat) // a value cell beyond the last date column
    | NoFootnoteColumn         // an "fn" cell on a page without date columns
    | MissingDetails(tag: string) // no detail sub-table for a tag
    | MissingTypeRows(tag: string) // the detail block lacks its type rows
    | MalformedFootnoteRow(marker: string) // a footnote index row without its cells
    | TooFewColumns(count: nat) // fewer than two date columns on an income/cash-flow page
    | ShortColumn(column: nat)  // a date column with fewer values than items
    | ShortFootnotes(column: nat) // fewer footnotes than items for a column

  /** The cells of `row` of the given kind, in order (`FindAll("th")` or
      `FindAll("td")`). */
  function CellsOf(row: Row, kind: Kind): (r: seq<Cell>)
    ensures |r| <= |row|
    ensures forall c :: c in r <==> c in row && c.kind == kind
  {
    if row == [] then []
    else (if row[0].kind == kind then [row[0]] else []) + CellsOf(row[1..], kind)
  }

  /** The texts of `cells`, in order. */
  function Texts(cells: seq<Cell>): (r: seq<string>)
    ensures |r| == |cells|
    ensures forall i :: 0 <= i < |cells| ==> r[i] == cells[i].text
  {
    seq(|cells|, i requires 0 <= i < |cells| => cells[i].text)
  }
}

=== FILE: metadata.dfy ===
/** The tag metadata resolver, over the abstract per-tag detail blocks.
    The balance-sheet parser reads every tag's type rows at a fixed
    position in its own block; the income/cash-flow parser reads the rows
    under the block's "+ Details" heading and, when a block has no such
    heading, reuses the rows it read for the previous tag. */
module Metadata {
  import opened Results
  import opened Markup

  datatype TagMetadata = TagMetadata(definition: string, dataType: string, balanceType: string, periodType: string)

  function WithTypes(definition: string, info: TypeInfo): TagMetadata {
    TagMetadata(definition, info.dataType, info.balanceType, info.periodType)
  }

  function TypesOf(m: TagMetadata): TypeInfo {
    TypeInfo(m.dataType, m.balanceType, m.periodType)
  }

  /** Balance-sheet metadata: one entry per tag, from that tag's own block;
      a tag without a block, or whose block lacks the type rows, fails. */
  function NestedMetadata(details: map<string, DetailBlock>, tags: seq<string>): (r: Result<seq<TagMetadata>, ParseError>)
    ensures r.Ok? <==> forall i :: 0 <= i < |tags| ==> tags[i] in details && details[tags[i]].nested.Some?
    ensures r.Ok? ==> |r.value| == |tags|
    ensures r.Ok? ==> forall i :: 0 <= i < |tags| ==>
              r.value[i] == WithTypes(details[tags[i]].definition, details[tags[i]].nested.value)
  {
    if tags == [] then Ok([])
    else if tags[0] !in details then Err(MissingDetails(tags[0]))
    else
      match details[tags[0]].nested
      case None => Err(MissingTypeRows(tags[0]))
      case Some(info) =>
        var rest :- NestedMetadata(details, tags[1..]);
        Ok([WithTypes(details[tags[0]].definition, info)] + rest)
  }

  /** The position of the latest tag among `tags[..i + 1]` whose block has
      a "+ Details" heading. */
  function LatestLabelled(details: map<string, DetailBlock>, tags: seq<string>, i: nat): (r: Option<nat>)
    requires i < |tags| && forall k :: 0 <= k < |tags| ==> tags[k] in details
    ensures r.Some? ==> r.value <= i && details[tags[r.value]].heading.DetailsHeading?
    ensures r.Some? ==> forall k :: r.value < k <= i ==> details[tags[k]].heading.NoHeading?
    ensures r.None? ==> forall k :: 0 <= k <= i ==> details[tags[k]].heading.NoHeading?
  {
    if details[tags[i]].heading.DetailsHeading? then Some(i)
    else if i == 0 then None
    else LatestLabelled(details, tags, i - 1)
  }

  /** Dropping the first tag shifts every latest-heading position by one,
      unless the dropped tag was the latest. */
  lemma LatestLabelledShift(details: map<string, DetailBlock>, tags: seq<string>, i: nat)
    requires 1 <= i < |tags| && forall k :: 0 <= k < |tags| ==> tags[k] in details
    ensures LatestLabelled(details, tags, i) ==
              match LatestLabelled(details, tags[1..], i - 1)
              case Some(j) => Some(j + 1)
              case None => if details[tags[0]].heading.DetailsHeading? then Some(0) else None
  {
    if details[tags[i]].heading.NoHeading? && i > 1 {
      LatestLabelledShift(details, tags, i - 1);
    }
  }

  /** The income/cash-flow loop from the tag after one whose type rows were
      `carried`. */
  function LabelledFrom(details: map<string, DetailBlock>, tags: seq<string>, carried: Option<TypeInfo>)
    : (r: Result<seq<TagMetadata>, ParseError>)
    ensures r.Ok? <==>
              && (forall i :: 0 <= i < |tags| ==> tags[i] in details && details[tags[i]].heading != DetailsHeading(None))
              && (carried.Some? || tags == [] || details[tags[0]].heading.DetailsHeading?)
    ensures r.Ok? ==> |r.value| == |tags|
  {
    if tags == [] then Ok([])
    else if tags[0] !in details then Err(MissingDetails(tags[0]))
    else
      var block := details[tags[0]];
      var info := if block.heading.DetailsHeading? then block.heading.typeRows else carried;
      match info
      case None => Err(MissingTypeRows(tags[0]))
      case Some(t) =>
        var rest :- LabelledFrom(details, tags[1..], info);
        Ok([WithTypes(block.definition, t)] + rest)
  }

  /** Each entry of the loop takes its definition from its own block and
      its type rows from the latest headed block so far, or the carried
      rows when there is none. */
  lemma {:induction false} LabelledFromEntries(details: map<string, DetailBlock>, tags: seq<string>, carried: Option<TypeInfo>, i: nat)
    requires LabelledFrom(details, tags, carried).Ok? && i < |tags|
    ensures LabelledFrom(details, tags, carried).value[i].definition == details[tags[i]].definition
    ensures TypesOf(LabelledFrom(details, tags, carried).value[i]) ==
              match LatestLabelled(details, tags, i)
              case Some(j) => details[tags[j]].heading.typeRows.value
              case None => carried.value
  {
    var info := if details[tags[0]].heading.DetailsHeading? then details[tags[0]].heading.typeRows else carried;
    if i > 0 {
      LabelledFromEntries(details, tags[1..], info, i - 1);
      LatestLabelledShift(details, tags, i);
    }
  }

  /** Income/cash-flow metadata: each tag takes its definition from its own
      block and its type rows from the latest block so far with a
      "+ Details" heading. The first tag's block must have one, and every
      heading must lead to the type rows. */
  function LabelledMetadata(details: map<string, DetailBlock>, tags: seq<string>): (r: Result<seq<TagMetadata>, ParseError>)
    ensures r.Ok? <==>
              && (forall i :: 0 <= i < |tags| ==> tags[i] in details && details[tags[i]].heading != DetailsHeading(None))
              && (tags == [] || details[tags[0]].heading.DetailsHeading?)
    ensures r.Ok? ==> |r.value| == |tags|
    ensures r.Ok? ==> forall i :: 0 <= i < |tags| ==>
              && r.value[i].definition == details[tags[i]].definition
              && LatestLabelled(details, tags, i).Some?
              && TypesOf(r.value[i]) == details[tags[LatestLabelled(details, tags, i).value]].heading.typeRows.value
  {
    var r := LabelledFrom(details, tags, None);
    if r.Ok? then LabelledEntries(details, tags); r else r
  }

  lemma LabelledEntries(details: map<string, DetailBlock>, tags: seq<string>)
    requires LabelledFrom(details, tags, None).Ok?
    ensures forall i :: 0 <= i < |tags| ==>
              && LabelledFrom(details, tags, None).value[i].definition == details[tags[i]].definition
              && LatestLabelled(details, tags, i).Some?
              && TypesOf(LabelledFrom(details, tags, None).value[i]) ==
                   details[tags[LatestLabelled(details, tags, i).value]].heading.typeRows.value
  {
    forall i | 0 <= i < |tags|
      ensures && LabelledFrom(details, tags, None).value[i].definition == details[tags[i]].definition
              && LatestLabelled(details, tags, i).Some?
              && TypesOf(LabelledFrom(details, tags, None).value[i]) ==
                   details[tags[LatestLabelled(details, tags, i).value]].heading.typeRows.value
    {
      LabelledFromEntries(details, tags, None, i);
    }
  }
}

=== FILE: placement.dfy ===
/** Positional placement of values within one body row: the column index
    starts at 0 on each row and advances on every value cell and every
    "fn" cell, so a value lands in the column equal to the number of such
    cells before it in the row; "fn" cells all land in footnote column 0. */
module Placement {
  import opened Results
  import opened Markup
  import opened Classify
  import opened Scan

  function Width(e: Event): nat {
    if e.TakesSlot() then 1 else 0
  }

  /** The number of events in `evs` that advance the column index. */
  function Slots(evs: seq<Event>): nat {
    if evs == [] then 0 else Slots(evs[..|evs| - 1]) + Width(evs[|evs| - 1])
  }

  /** The texts of the value events of `evs` whose column (the number of
      slot-taking events before them) is `c`. */
  function ColumnEntries(evs: seq<Event>, c: nat): seq<string> {
    if evs == [] then []
    else
      var init, e := evs[..|evs| - 1], evs[|evs| - 1];
      ColumnEntries(init, c) + (if e.Value? && Slots(init) == c then [e.text] else [])
  }

  /** The texts of the "fn" events of `evs`, in order. */
  function NoteTexts(evs: seq<Event>): seq<string> {
    if evs == [] then []
    else
      var init, e := evs[..|evs| - 1], evs[|evs| - 1];
      NoteTexts(init) + (if e.ColumnNote? then [e.text] else [])
  }

  /** An event the row loop accepts, given the column it reaches with. */
  predicate EventFits(e: Event, slot: nat, width: nat, noteColumns: nat) {
    && !e.Unanchored?
    && (e.Value? ==> slot < width)
    && (e.ColumnNote? ==> 0 < noteColumns)
  }

  /** Every event of the row is accepted: no unanchored label, no value
      beyond the last of `width` columns, no "fn" cell without columns. */
  predicate RowFits(evs: seq<Event>, width: nat, noteColumns: nat) {
    forall j :: 0 <= j < |evs| ==> EventFits(evs[j], Slots(evs[..j]), width, noteColumns)
  }

  /** `st` is `start` after the events `done` of the current row. */
  predicate Placed(start: ScanState, st: ScanState, done: seq<Event>) {
    && |st.values| == |start.values| && |st.columnNotes| == |start.columnNotes|
    && (forall c :: 0 <= c < |start.values| ==> st.values[c] == start.values[c] + ColumnEntries(done, c))
    && (0 < |start.columnNotes| ==> st.columnNotes[0] == start.columnNotes[0] + NoteTexts(done))
  }

  lemma AppendOne(evs: seq<Event>, e: Event)
    ensures (evs + [e])[..|evs|] == evs
    ensures Slots(evs + [e]) == Slots(evs) + Width(e)
    ensures forall c :: ColumnEntries(evs + [e], c) == ColumnEntries(evs, c) + (if e.Value? && Slots(evs) == c then [e.text] else [])
    ensures NoteTexts(evs + [e]) == NoteTexts(evs) + (if e.ColumnNote? then [e.text] else [])
  {
    assert (evs + [e])[..|evs + [e]| - 1] == evs;
  }

  /** One event, applied at the column its predecessors in the row reach,
      keeps `Placed`; it fails exactly when it does not fit. */
  lemma EventPlaced(start: ScanState, st: ScanState, done: seq<Event>, e: Event)
    requires Placed(start, st, done)
    ensures ApplyEvent(st, e, Slots(done)).Ok? <==> EventFits(e, Slots(done), |start.values|, |start.columnNotes|)
    ensures ApplyEvent(st, e, Slots(done)).Ok? ==>
              && Placed(start, ApplyEvent(st, e, Slots(done)).value.state, done + [e])
              && ApplyEvent(st, e, Slots(done)).value.col == Slots(done + [e])
  {
    AppendOne(done, e);
    var col := Slots(done);
    var r := ApplyEvent(st, e, col);
    if r.Ok? {
      var next := r.value.state;
      forall c | 0 <= c < |start.values|
        ensures next.values[c] == start.values[c] + ColumnEntries(done + [e], c)
      {
        if e.Value? && c == col {
          assert next.values[c] == st.values[c] + [e.text];
        } else {
          assert next.values[c] == st.values[c];
        }
      }
    }
  }

  lemma ShiftPrefix(done: seq<Event>, evs: seq<Event>)
    requires evs != []
    ensures done + [evs[0]] + evs[1..] == done + evs
    ensures done + evs[..0] == done
    ensures forall j :: 0 <= j < |evs| - 1 ==> done + [evs[0]] + evs[1..][..j] == done + evs[..j + 1]
  {
    forall j | 0 <= j < |evs| - 1
      ensures done + [evs[0]] + evs[1..][..j] == done + evs[..j + 1]
    {
      assert evs[..j + 1] == [evs[0]] + evs[1..][..j];
    }
  }

  /** The events of a row, applied from the column `done` reaches, keep
      `Placed`; they fail exactly when one of them does not fit. */
  lemma {:induction false} EventsPlaced(start: ScanState, st: ScanState, done: seq<Event>, evs: seq<Event>)
    requires Placed(start, st, done)
    ensures ApplyEvents(st, evs, Slots(done)).Ok? <==>
              forall j :: 0 <= j < |evs| ==>
                EventFits(evs[j], Slots(done + evs[..j]), |start.values|, |start.columnNotes|)
    ensures ApplyEvents(st, evs, Slots(done)).Ok? ==> Placed(start, ApplyEvents(st, evs, Slots(done)).value, done + evs)
    decreases |evs|
  {
    if evs == [] {
      assert done + evs == done;
    } else {
      var e, rest := evs[0], evs[1..];
      EventPlaced(start, st, done, e);
      FitsSplit(done, evs, |start.values|, |start.columnNotes|);
      if ApplyEvent(st, e, Slots(done)).Ok? {
        var next := ApplyEvent(st, e, Slots(done)).value;
        EventsPlaced(start, next.state, done + [e], rest);
        ShiftPrefix(done, evs);
      }
    }
  }

  /** The events of a row all fit iff the first does and the rest fit
      after it. */
  lemma FitsSplit(done: seq<Event>, evs: seq<Event>, width: nat, noteColumns: nat)
    requires evs != []
    ensures (forall j :: 0 <= j < |evs| ==> EventFits(evs[j], Slots(done + evs[..j]), width, noteColumns)) <==>
              && EventFits(evs[0], Slots(done), width, noteColumns)
              && (forall j :: 0 <= j < |evs[1..]| ==>
                    EventFits(evs[1..][j], Slots(done + [evs[0]] + evs[1..][..j]), width, noteColumns))
  {
    ShiftPrefix(done, evs);
    assert forall j :: 0 <= j < |evs| - 1 ==> evs[1..][j] == evs[j + 1];
  }

  /** Slots only grow along a row, by one at each slot-taking event. */
  lemma {:induction false} SlotsGrow(evs: seq<Event>, j: nat)
    requires j < |evs|
    ensures Slots(evs[..j]) + Width(evs[j]) <= Slots(evs)
    decreases |evs|
  {
    var init := evs[..|evs| - 1];
    if j == |evs| - 1 {
      assert evs[..j] == init;
    } else {
      assert init[..j] == evs[..j] && init[j] == evs[j];
      SlotsGrow(init, j);
    }
  }

  /** A row puts at most one value into each column: the value event whose
      column is `c`, if there is one. */
  lemma {:induction false} OneEntryPerColumn(evs: seq<Event>, c: nat)
    ensures |ColumnEntries(evs, c)| <= 1
    ensures forall j :: 0 <= j < |evs| && evs[j].Value? && Slots(evs[..j]) == c ==>
              ColumnEntries(evs, c) == [evs[j].text]
    ensures (forall j :: 0 <= j < |evs| && evs[j].Value? ==> Slots(evs[..j]) != c) ==> ColumnEntries(evs, c) == []
    decreases |evs|
  {
    if evs != [] {
      var init, e := evs[..|evs| - 1], evs[|evs| - 1];
      OneEntryPerColumn(init, c);
      assert forall j :: 0 <= j < |init| ==> init[j] == evs[j] && init[..j] == evs[..j];
      assert evs[..|evs| - 1] == init;
      if e.Value? && Slots(init) == c {
        forall j | 0 <= j < |init| && init[j].Value?
          ensures Slots(init[..j]) != c
        {
          SlotsGrow(init, j);
        }
      }
    }
  }

  /** Positional placement in one body row: the value of each value cell
      is appended to the column equal to the number of value and "fn"
      cells before it in the row, and columns that no value cell of the
      row reaches are left unchanged. Every "fn" cell's text is appended to
      footnote column 0. */
  lemma RowPlacement(st: ScanState, evs: seq<Event>)
    requires ApplyEvents(st, evs, 0).Ok?
    ensures var r := ApplyEvents(st, evs, 0).value;
            && (forall j :: 0 <= j < |evs| && evs[j].Value? ==>
                  && Slots(evs[..j]) < |st.values|
                  && r.values[Slots(evs[..j])] == st.values[Slots(evs[..j])] + [evs[j].text])
            && (forall c :: 0 <= c < |st.values| && (forall j :: 0 <= j < |evs| && evs[j].Value? ==> Slots(evs[..j]) != c)
                  ==> r.values[c] == st.values[c])
            && (0 < |st.columnNotes| ==> r.columnNotes[0] == st.columnNotes[0] + NoteTexts(evs))
  {
    assert Placed(st, st, []);
    EventsPlaced(st, st, [], evs);
    assert [] + evs == evs;
    var r := ApplyEvents(st, evs, 0).value;
    forall j | 0 <= j < |evs| && evs[j].Value?
      ensures Slots(evs[..j]) < |st.values|
      ensures r.values[Slots(evs[..j])] == st.values[Slots(evs[..j])] + [evs[j].text]
    {
      assert [] + evs[..j] == evs[..j];
      OneEntryPerColumn(evs, Slots(evs[..j]));
    }
    forall c | 0 <= c < |st.values| && (forall j :: 0 <= j < |evs| && evs[j].Value? ==> Slots(evs[..j]) != c)
      ensures r.values[c] == st.values[c]
    {
      OneEntryPerColumn(evs, c);
    }
  }

  /** A row is rejected exactly when it does not fit: a label cell without
      a link, a value cell past the last date column, or an "fn" cell on a
      page with no date columns. */
  lemma RowAcceptedIffFits(st: ScanState, evs: seq<Event>)
    ensures ApplyEvents(st, evs, 0).Ok? <==> RowFits(evs, |st.values|, |st.columnNotes|)
  {
    assert Placed(st, st, []);
    EventsPlaced(st, st, [], evs);
    assert forall j :: 0 <= j < |evs| ==> [] + evs[..j] == evs[..j];
  }

  /** The value texts the body rows put into column `c`, row by row. */
  function StatementColumn(v: Variant, rows: seq<Row>, c: nat): seq<string> {
    if rows == [] then []
    else ColumnEntries(RowEvents(v, CellsOf(rows[0], Td)), c) + StatementColumn(v, rows[1..], c)
  }

  /** The texts of the body rows' "fn" cells, row by row. */
  function StatementNotes(v: Variant, rows: seq<Row>): seq<string> {
    if rows == [] then []
    else NoteTexts(RowEvents(v, CellsOf(rows[0], Td))) + StatementNotes(v, rows[1..])
  }

  /** One body row appends, to each column, the value it places there, and
      to footnote column 0 its "fn" texts. */
  lemma RowStepPlaced(v: Variant, st: ScanState, row: Row)
    requires st.phase == InBody && StepRow(v, st, row).Ok?
    ensures var evs := RowEvents(v, CellsOf(row, Td));
            var next := StepRow(v, st, row).value;
            && next.phase == InBody
            && |next.values| == |st.values| && |next.columnNotes| == |st.columnNotes|
            && (forall c :: 0 <= c < |st.values| ==> next.values[c] == st.values[c] + ColumnEntries(evs, c))
            && (0 < |st.columnNotes| ==> next.columnNotes[0] == st.columnNotes[0] + NoteTexts(evs))
  {
    var evs := RowEvents(v, CellsOf(row, Td));
    assert Placed(st, st, []);
    EventsPlaced(st, st, [], evs);
    assert [] + evs == evs;
  }

  lemma Associative<T>(a: seq<T>, b: seq<T>, c: seq<T>)
    ensures (a + b) + c == a + (b + c)
  {
  }

  /** `r` is `st` after the body rows `rows`: each column has gained the
      values the rows place in it, footnote column 0 their "fn" texts. */
  predicate RowsAppended(v: Variant, st: ScanState, r: ScanState, rows: seq<Row>) {
    && |r.values| == |st.values| && |r.columnNotes| == |st.columnNotes|
    && (forall c :: 0 <= c < |st.values| ==> r.values[c] == st.values[c] + StatementColumn(v, rows, c))
    && (0 < |st.columnNotes| ==> r.columnNotes[0] == st.columnNotes[0] + StatementNotes(v, rows))
  }

  lemma AppendedAfterRow(v: Variant, st: ScanState, next: ScanState, r: ScanState, rows: seq<Row>)
    requires rows != []
    requires RowsAppended(v, next, r, rows[1..])
    requires var evs := RowEvents(v, CellsOf(rows[0], Td));
             && |next.values| == |st.values| && |next.columnNotes| == |st.columnNotes|
             && (forall c :: 0 <= c < |st.values| ==> next.values[c] == st.values[c] + ColumnEntries(evs, c))
             && (0 < |st.columnNotes| ==> next.columnNotes[0] == st.columnNotes[0] + NoteTexts(evs))
    ensures RowsAppended(v, st, r, rows)
  {
    var evs := RowEvents(v, CellsOf(rows[0], Td));
    forall c | 0 <= c < |st.values|
      ensures r.values[c] == st.values[c] + StatementColumn(v, rows, c)
    {
      var x, y := ColumnEntries(evs, c), StatementColumn(v, rows[1..], c);
      assert StatementColumn(v, rows, c) == x + y;
      assert r.values[c] == (st.values[c] + x) + y;
      Associative(st.values[c], x, y);
    }
    if 0 < |st.columnNotes| {
      var x, y := NoteTexts(evs), StatementNotes(v, rows[1..]);
      assert StatementNotes(v, rows) == x + y;
      Associative(st.columnNotes[0], x, y);
    }
  }

  /** Body rows scanned from `st` append, to each column, the values they
      place in it, and to footnote column 0 their "fn" texts. */
  lemma {:induction false} RowsPlaced(v: Variant, st: ScanState, rows: seq<Row>)
    requires st.phase == InBody && ScanRows(v, st, rows).Ok?
    ensures RowsAppended(v, st, ScanRows(v, st, rows).value, rows)
    decreases |rows|
  {
    if rows == [] {
      assert forall c :: StatementColumn(v, rows, c) == [];
    } else {
      var next := StepRow(v, st, rows[0]).value;
      RowStepPlaced(v, st, rows[0]);
      RowsPlaced(v, next, rows[1..]);
      AppendedAfterRow(v, st, next, ScanRows(v, next, rows[1..]).value, rows);
    }
  }

  /** Date column `c` of a scanned statement holds, in row order, the value
      each body row places at position `c`; footnote column 0 holds the
      texts of all "fn" cells in document order. */
  lemma StatementColumns(v: Variant, rows: seq<Row>)
    requires ScanStatement(v, rows).Ok?
    ensures var st := ScanStatement(v, rows).value;
            && (forall c :: 0 <= c < |st.dates| ==> st.values[c] == StatementColumn(v, BodyRows(v, rows), c))
            && (0 < |st.dates| ==> st.columnNotes[0] == StatementNotes(v, BodyRows(v, rows)))
  {
    HeaderThenBody(v, rows);
    if HeaderRowCount(v) <= |rows| {
      var h := AfterHeader(v, rows);
      RowsPlaced(v, h, BodyRows(v, rows));
      assert forall c :: 0 <= c < |h.dates| ==> h.values[c] + StatementColumn(v, BodyRows(v, rows), c) == StatementColumn(v, BodyRows(v, rows), c);
    }
  }
}

=== FILE: results.dfy ===
/** Failure-compatible wrappers used throughout the model. The Go panics
    the model keeps (an index out of range, a method call on a missing
    link or type table; README lists them) yield an `Err` instead. */
module Results {

  datatype Option<+T> = None | Some(value: T)

  datatype Result<+T, +E> = Ok(value: T) | Err(error: E) {

    predicate IsFailure() {
      Err?
    }

    function PropagateFailure<U>(): Result<U, E>
      requires Err?
    {
      Err(error)
    }

    function Extract(): T
      requires Ok?
    {
      value
    }
  }
}

=== FILE: scan.dfy ===
/** The statement body parser: one left-to-right fold over the table's
    rows with an explicit state record. The first row (balance sheet) or
    the first two rows (income/cash-flow) are header rows; every later row
    is classified and its events applied, with the column index restarting
    at zero on each row. */
module Scan {
  import opened Results
  import opened Markup
  import opened Classify

  /** Where the fold is: before the title row, before the date row
      (income/cash-flow only), or in the body. */
  datatype Phase = AwaitHeader | AwaitDates | InBody

  /** Everything the parser accumulates. `items`, `tags`, `axes` and
      `abstracts` are parallel sequences; `values[c]` and `columnNotes[c]`
      are the entries of date column `c`; `currentAxis` and `currentAbstract` are the
      sticky context that the next item inherits. */
  datatype ScanState = ScanState(
    phase: Phase,
    title: string,
    duration: string,
    dates: seq<string>,
    currentAxis: string,
    currentAbstract: string,
    items: seq<string>,
    tags: seq<string>,
    axes: seq<string>,
    abstracts: seq<string>,
    values: seq<seq<string>>,
    markers: seq<string>,
    columnNotes: seq<seq<string>>,
    sawColumnNote: bool)

  const Initial: ScanState := ScanState(AwaitHeader, "", "", [], "", "", [], [], [], [], [], [], [], false)

  /** The invariant every reachable state keeps. */
  predicate Valid(st: ScanState) {
    && |st.tags| == |st.items| && |st.axes| == |st.items| && |st.abstracts| == |st.items|
    && |st.values| == |st.dates| && |st.columnNotes| == |st.dates|
    && (forall c :: 1 <= c < |st.columnNotes| ==> st.columnNotes[c] == [])
    && (st.phase != InBody ==>
          st.dates == [] && st.items == [] && st.markers == [] && !st.sawColumnNote
          && st.currentAxis == "" && st.currentAbstract == "")
  }

  /** `n` empty columns. */
  function EmptyColumns(n: nat): (r: seq<seq<string>>)
    ensures |r| == n && forall c :: 0 <= c < n ==> r[c] == []
  {
    seq(n, _ => [])
  }

  /** The header loop's overwriting scan: the text of the last cell of
      class `cls`, or `current` when there is none. */
  function LastText(cells: seq<Cell>, cls: string, current: string): (r: string)
    ensures (forall j :: 0 <= j < |cells| ==> cells[j].className != cls) ==> r == current
    ensures forall j ::
              (0 <= j < |cells| && cells[j].className == cls && forall k :: j < k < |cells| ==> cells[k].className != cls)
              ==> r == cells[j].text
  {
    if cells == [] then current
    else
      var rest := cells[1..];
      assert forall k :: 0 <= k < |rest| ==> rest[k] == cells[k + 1];
      LastText(rest, cls, if cells[0].className == cls then cells[0].text else current)
  }

  /** How many of `cells` have class `cls`. */
  function CountOfClass(cells: seq<Cell>, cls: string): (r: nat)
    ensures r <= |cells|
  {
    if cells == [] then 0 else (if cells[0].className == cls then 1 else 0) + CountOfClass(cells[1..], cls)
  }

  /** The texts of the cells of class `cls`, in order. */
  function TextsOfClass(cells: seq<Cell>, cls: string): (r: seq<string>)
    ensures |r| == CountOfClass(cells, cls)
  {
    if cells == [] then []
    else (if cells[0].className == cls then [cells[0].text] else []) + TextsOfClass(cells[1..], cls)
  }

  /** What `TextsOfClass` holds: one text per cell of class `cls`, the cell
      at position `j` giving the entry numbered by the cells of that class
      before it. */
  lemma {:induction false} TextsOfClassContents(cells: seq<Cell>, cls: string)
    ensures forall j :: 0 <= j < |cells| && cells[j].className == cls ==>
              CountOfClass(cells[..j], cls) < |TextsOfClass(cells, cls)|
              && TextsOfClass(cells, cls)[CountOfClass(cells[..j], cls)] == cells[j].text
  {
    if cells != [] {
      var head := if cells[0].className == cls then [cells[0].text] else [];
      TextsOfClassContents(cells[1..], cls);
      forall j | 1 <= j < |cells|
        ensures CountOfClass(cells[..j], cls) == |head| + CountOfClass(cells[1..][..j - 1], cls)
      {
        assert cells[..j][1..] == cells[1..][..j - 1];
      }
      assert CountOfClass(cells[..0], cls) == 0;
    }
  }

  /** The fold state inside one row: the parser state and the column the
      next value goes to. */
  datatype Cursor = Cursor(state: ScanState, col: nat)

  /** Applies one cell's event. An item inherits the current axis and
      abstract; a marker cell only updates that context. A value cell is
      appended to column `col` and advances it; an "fn" cell is appended to
      column 0 and also advances it. */
  function ApplyEvent(st: ScanState, e: Event, col: nat): (r: Result<Cursor, ParseError>)
    ensures r.Ok? ==> r.value.state.phase == st.phase && r.value.state.title == st.title
                      && r.value.state.duration == st.duration && r.value.state.dates == st.dates
    ensures r.Ok? ==> |r.value.state.values| == |st.values| && |r.value.state.columnNotes| == |st.columnNotes|
    ensures r.Ok? ==> forall c :: 1 <= c < |st.columnNotes| ==> r.value.state.columnNotes[c] == st.columnNotes[c]
    ensures r.Ok? && Valid(st) && st.phase == InBody ==> Valid(r.value.state)
    ensures r.Ok? ==> r.value.col == col + (if e.TakesSlot() then 1 else 0)
  {
    match e
    case Item(text, tag) =>
      Ok(Cursor(st.(items := st.items + [text], tags := st.tags + [tag],
                    axes := st.axes + [st.currentAxis], abstracts := st.abstracts + [st.currentAbstract]), col))
    case AxisMark(tag) => Ok(Cursor(st.(currentAxis := tag), col))
    case AbstractMark(tag) => Ok(Cursor(st.(currentAbstract := tag), col))
    case Value(text) =>
      if col < |st.values| then Ok(Cursor(st.(values := st.values[col := st.values[col] + [text]]), col + 1))
      else Err(ColumnOverflow(col))
    case Marker(text) => Ok(Cursor(st.(markers := st.markers + [text]), col))
    case ColumnNote(text) =>
      if 0 < |st.columnNotes| then
        Ok(Cursor(st.(columnNotes := st.columnNotes[0 := st.columnNotes[0] + [text]], sawColumnNote := true), col + 1))
      else Err(NoFootnoteColumn)
    case Unanchored => Err(MissingAnchor)
    case Ignored => Ok(Cursor(st, col))
  }

  /** Applies one row's events in order, starting at column `col`. */
  function ApplyEvents(st: ScanState, evs: seq<Event>, col: nat): (r: Result<ScanState, ParseError>)
    decreases |evs|
    ensures r.Ok? ==> r.value.phase == st.phase && r.value.title == st.title
                      && r.value.duration == st.duration && r.value.dates == st.dates
    ensures r.Ok? ==> |r.value.values| == |st.values| && |r.value.columnNotes| == |st.columnNotes|
    ensures r.Ok? ==> forall c :: 1 <= c < |st.columnNotes| ==> r.value.columnNotes[c] == st.columnNotes[c]
    ensures r.Ok? && Valid(st) && st.phase == InBody ==> Valid(r.value)
  {
    if evs == [] then Ok(st)
    else
      var next :- ApplyEvent(st, evs[0], col);
      ApplyEvents(next.state, evs[1..], next.col)
  }

  /** One iteration of the row loop. */
  function StepRow(v: Variant, st: ScanState, row: Row): (r: Result<ScanState, ParseError>)
    ensures r.Ok? && Valid(st) ==> Valid(r.value)
  {
    match st.phase
    case AwaitHeader =>
      var ths := CellsOf(row, Th);
      if v == BalanceSheet then
        var dates := TextsOfClass(ths, "th");
        Ok(st.(phase := InBody, title := LastText(ths, "tl", st.title), dates := dates,
               values := EmptyColumns(|dates|), columnNotes := EmptyColumns(|dates|)))
      else
        Ok(st.(phase := AwaitDates, title := LastText(ths, "tl", st.title),
               duration := LastText(ths, "th", st.duration)))
    case AwaitDates =>
      var dates := Texts(CellsOf(row, Th));
      Ok(st.(phase := InBody, dates := dates,
             values := EmptyColumns(|dates|), columnNotes := EmptyColumns(|dates|)))
    case InBody =>
      ApplyEvents(st, RowEvents(v, CellsOf(row, Td)), 0)
  }

  /** The row loop, from state `st`. */
  function ScanRows(v: Variant, st: ScanState, rows: seq<Row>): (r: Result<ScanState, ParseError>)
    decreases |rows|
    ensures r.Ok? && Valid(st) ==> Valid(r.value)
  {
    if rows == [] then Ok(st)
    else
      var next :- StepRow(v, st, rows[0]);
      ScanRows(v, next, rows[1..])
  }

  /** Body rows keep the phase, the title, the duration and the dates. */
  lemma {:induction false} BodyKeepsHeader(v: Variant, st: ScanState, rows: seq<Row>)
    requires st.phase == InBody && ScanRows(v, st, rows).Ok?
    ensures ScanRows(v, st, rows).value.phase == InBody
    ensures ScanRows(v, st, rows).value.title == st.title
    ensures ScanRows(v, st, rows).value.duration == st.duration
    ensures ScanRows(v, st, rows).value.dates == st.dates
    decreases |rows|
  {
    if rows != [] {
      var step := ApplyEvents(st, RowEvents(v, CellsOf(rows[0], Td)), 0);
      assert StepRow(v, st, rows[0]) == step;
      var next := step.value;
      assert ScanRows(v, st, rows) == ScanRows(v, next, rows[1..]);
      BodyKeepsHeader(v, next, rows[1..]);
    }
  }

  /** The row loop over a whole table. */
  function ScanStatement(v: Variant, rows: seq<Row>): (r: Result<ScanState, ParseError>)
    ensures r.Ok? ==> Valid(r.value)
  {
    ScanRows(v, Initial, rows)
  }

  /** How many header rows precede the body. */
  function HeaderRowCount(v: Variant): nat {
    if v == BalanceSheet then 1 else 2
  }

  /** The rows the body loop sees. */
  function BodyRows(v: Variant, rows: seq<Row>): seq<Row> {
    if |rows| <= HeaderRowCount(v) then [] else rows[HeaderRowCount(v)..]
  }

  /** The state right after the header rows, read directly off them: the
      balance sheet takes its title (last "tl" cell) and its dates (the "th"
      cells) from the first row; the income/cash-flow statement takes title
      and duration (last "tl" and last "th" cell) from the first row and its
      dates (every header cell) from the second. */
  function AfterHeader(v: Variant, rows: seq<Row>): (r: ScanState)
    requires HeaderRowCount(v) <= |rows|
    ensures r.phase == InBody && Valid(r)
    ensures r.items == [] && r.markers == [] && r.currentAxis == "" && r.currentAbstract == ""
    ensures !r.sawColumnNote
    ensures forall c :: 0 <= c < |r.dates| ==> r.values[c] == [] && r.columnNotes[c] == []
    ensures r.title == LastText(CellsOf(rows[0], Th), "tl", "")
    ensures v == BalanceSheet ==> r.duration == "" && r.dates == TextsOfClass(CellsOf(rows[0], Th), "th")
    ensures v == IncomeOrCashFlow ==>
              r.duration == LastText(CellsOf(rows[0], Th), "th", "") && r.dates == Texts(CellsOf(rows[1], Th))
  {
    var first := CellsOf(rows[0], Th);
    if v == BalanceSheet then
      var dates := TextsOfClass(first, "th");
      Initial.(phase := InBody, title := LastText(first, "tl", ""), dates := dates,
               values := EmptyColumns(|dates|), columnNotes := EmptyColumns(|dates|))
    else
      var dates := Texts(CellsOf(rows[1], Th));
      Initial.(phase := InBody, title := LastText(first, "tl", ""), duration := LastText(first, "th", ""),
               dates := dates, values := EmptyColumns(|dates|), columnNotes := EmptyColumns(|dates|))
  }

  /** The first header row of each variant. */
  lemma FirstHeaderStep(v: Variant, rows: seq<Row>)
    requires 0 < |rows|
    ensures v == BalanceSheet ==> StepRow(v, Initial, rows[0]) == Ok(AfterHeader(v, rows))
    ensures v == IncomeOrCashFlow ==> StepRow(v, Initial, rows[0]).Ok?
    ensures v == IncomeOrCashFlow ==> StepRow(v, Initial, rows[0]).value.phase == AwaitDates
    ensures v == IncomeOrCashFlow ==> Valid(StepRow(v, Initial, rows[0]).value)
    ensures v == IncomeOrCashFlow && 1 < |rows| ==>
              StepRow(v, StepRow(v, Initial, rows[0]).value, rows[1]) == Ok(AfterHeader(v, rows))
  {
  }

  /** The header phase consumes exactly one row of a balance sheet and
      exactly two of an income/cash-flow statement; every later row goes
      to the body loop. A table too short to finish its header yields no
      dates and no items. */
  lemma {:induction false} HeaderThenBody(v: Variant, rows: seq<Row>)
    ensures HeaderRowCount(v) <= |rows| ==>
              ScanStatement(v, rows) == ScanRows(v, AfterHeader(v, rows), BodyRows(v, rows))
    ensures |rows| < HeaderRowCount(v) ==>
              ScanStatement(v, rows).Ok? && ScanStatement(v, rows).value.phase != InBody
              && ScanStatement(v, rows).value.dates == [] && ScanStatement(v, rows).value.items == []
  {
    if rows == [] {
      assert ScanStatement(v, rows) == Ok(Initial);
    } else {
      FirstHeaderStep(v, rows);
      if v == BalanceSheet {
        assert BodyRows(v, rows) == rows[1..];
      } else {
        var mid := StepRow(v, Initial, rows[0]).value;
        assert ScanStatement(v, rows) == ScanRows(v, mid, rows[1..]);
        if |rows| == 1 {
          assert ScanRows(v, mid, rows[1..]) == Ok(mid);
        } else {
          assert rows[1..][1..] == rows[2..] == BodyRows(v, rows);
          assert ScanRows(v, mid, rows[1..]) == ScanRows(v, AfterHeader(v, rows), rows[1..][1..]);
        }
      }
    }
  }

  /** The body rows never change what the header rows set: a successful
      scan ends with the header's title, duration and dates. */
  lemma HeaderFieldsKept(v: Variant, rows: seq<Row>)
    requires HeaderRowCount(v) <= |rows| && ScanStatement(v, rows).Ok?
    ensures ScanStatement(v, rows).value.title == AfterHeader(v, rows).title
    ensures ScanStatement(v, rows).value.duration == AfterHeader(v, rows).duration
    ensures ScanStatement(v, rows).value.dates == AfterHeader(v, rows).dates
  {
    HeaderThenBody(v, rows);
    BodyKeepsHeader(v, AfterHeader(v, rows), BodyRows(v, rows));
  }
}

=== FILE: scenarios.dfy ===
/** A small balance sheet traced through the whole parser: a header row
    with a title and two dates, then two item rows, each a linked label
    followed by one value per date, with no axis or abstract markers and
    no footnote index table. */
module Scenarios {
  import opened Results
  import opened Text
  import opened Markup
  import opened Tags
  import opened Classify
  import opened Scan
  import opened Metadata
  import opened Footnotes
  import opened Assembly
  import opened Statements

  /** One item row: label, tag, and the values for the two dates. */
  datatype Line = Line(item: string, tag: string, first: string, second: string)

  /** A tag the label link carries verbatim and that names neither an axis
      nor an abstract. */
  predicate PlainTag(tag: string) {
    && (forall i :: 0 <= i < |tag| ==> tag[i] != '\'')
    && !Contains(tag, AxisWord) && !Contains(tag, AbstractWord)
  }

  function HeaderRow(title: string, d0: string, d1: string): Row {
    [Cell(Th, "tl", title, None), Cell(Th, "th", d0, None), Cell(Th, "th", d1, None)]
  }

  function LineRow(l: Line): Row {
    [Cell(Td, "pl ", l.item, Some(ShowPrefix + l.tag + ShowSuffix)),
     Cell(Td, "nump", l.first, None), Cell(Td, "nump", l.second, None)]
  }

  function TwoByTwo(title: string, d0: string, d1: string, l0: Line, l1: Line, details: map<string, DetailBlock>): Page {
    Page([HeaderRow(title, d0, d1), LineRow(l0), LineRow(l1)], details, None)
  }

  lemma {:induction false} OnlyOfKind(row: Row, kind: Kind)
    requires forall k :: 0 <= k < |row| ==> row[k].kind == kind
    ensures CellsOf(row, kind) == row
  {
    if row != [] {
      OnlyOfKind(row[1..], kind);
    }
  }

  /** A linked label with a plain tag is an item. */
  lemma LabelIsItem(v: Variant, l: Line)
    requires PlainTag(l.tag)
    ensures CellEvent(v, LineRow(l)[0]) == Item(l.item, l.tag)
  {
    ExtractQuoteFreeTag(l.tag);
  }

  lemma AmountIsValue(v: Variant, c: Cell)
    requires c.className == "nump"
    ensures CellEvent(v, c) == Value(c.text)
  {
  }

  /** A cell that does not end the row is followed by the rest's events. */
  lemma RowEventsCons(v: Variant, cells: seq<Cell>)
    requires cells != [] && !CellEvent(v, cells[0]).EndsRow()
    ensures RowEvents(v, cells) == [CellEvent(v, cells[0])] + RowEvents(v, cells[1..])
  {
  }

  /** Two amount cells yield their two values. */
  lemma AmountEvents(v: Variant, c1: Cell, c2: Cell)
    requires c1.className == "nump" && c2.className == "nump"
    ensures RowEvents(v, [c1, c2]) == [Value(c1.text), Value(c2.text)]
  {
    AmountIsValue(v, c1);
    AmountIsValue(v, c2);
    RowEventsCons(v, [c2]);
    assert [c2][1..] == [];
    RowEventsCons(v, [c1, c2]);
    assert [c1, c2][1..] == [c2];
  }

  lemma LineCells(l: Line)
    ensures CellsOf(LineRow(l), Td) == LineRow(l)
  {
    OnlyOfKind(LineRow(l), Td);
  }

  /** An item row yields the item followed by its two values. */
  lemma LineEvents(v: Variant, l: Line)
    requires PlainTag(l.tag)
    ensures RowEvents(v, CellsOf(LineRow(l), Td)) == [Item(l.item, l.tag), Value(l.first), Value(l.second)]
  {
    var cells := LineRow(l);
    LineCells(l);
    LabelIsItem(v, l);
    ItemThenAmounts(v, cells[0], cells[1], cells[2]);
  }

  /** A row of an item label and two amount cells yields the item and the
      two values. */
  lemma ItemThenAmounts(v: Variant, lead: Cell, c1: Cell, c2: Cell)
    requires CellEvent(v, lead).Item? && c1.className == "nump" && c2.className == "nump"
    ensures RowEvents(v, [lead, c1, c2]) == [CellEvent(v, lead), Value(c1.text), Value(c2.text)]
  {
    AmountEvents(v, c1, c2);
    RowEventsCons(v, [lead, c1, c2]);
    assert [lead, c1, c2][1..] == [c1, c2];
  }

  /** The state after an item row, from column 0 of two. */
  function AfterLine(st: ScanState, l: Line): ScanState
    requires |st.values| == 2
  {
    st.(items := st.items + [l.item], tags := st.tags + [l.tag],
        axes := st.axes + [st.currentAxis], abstracts := st.abstracts + [st.currentAbstract],
        values := [st.values[0] + [l.first], st.values[1] + [l.second]])
  }

  lemma ItemThen(st: ScanState, text: string, tag: string, rest: seq<Event>)
    ensures ApplyEvents(st, [Item(text, tag)] + rest, 0) ==
            ApplyEvents(st.(items := st.items + [text], tags := st.tags + [tag],
                            axes := st.axes + [st.currentAxis], abstracts := st.abstracts + [st.currentAbstract]), rest, 0)
  {
    assert ([Item(text, tag)] + rest)[1..] == rest;
  }

  lemma ValueThen(st: ScanState, text: string, rest: seq<Event>, col: nat)
    requires col < |st.values|
    ensures ApplyEvents(st, [Value(text)] + rest, col) ==
            ApplyEvents(st.(values := st.values[col := st.values[col] + [text]]), rest, col + 1)
  {
    assert ([Value(text)] + rest)[1..] == rest;
  }

  /** An item row's events put the item after the earlier ones and its
      values at the ends of the two columns. */
  lemma LineApplied(st: ScanState, l: Line)
    requires |st.values| == 2
    ensures ApplyEvents(st, [Item(l.item, l.tag), Value(l.first), Value(l.second)], 0) == Ok(AfterLine(st, l))
  {
    var a := st.(items := st.items + [l.item], tags := st.tags + [l.tag],
                 axes := st.axes + [st.currentAxis], abstracts := st.abstracts + [st.currentAbstract]);
    assert [Item(l.item, l.tag), Value(l.first), Value(l.second)] == [Item(l.item, l.tag)] + [Value(l.first), Value(l.second)];
    ItemThen(st, l.item, l.tag, [Value(l.first), Value(l.second)]);
    ValuesApplied(a, l.first, l.second);
  }

  /** Two values, from column 0 of two, go to the ends of the two columns. */
  lemma ValuesApplied(st: ScanState, first: string, second: string)
    requires |st.values| == 2
    ensures ApplyEvents(st, [Value(first), Value(second)], 0) ==
            Ok(st.(values := [st.values[0] + [first], st.values[1] + [second]]))
  {
    var b := st.(values := st.values[0 := st.values[0] + [first]]);
    var c := b.(values := b.values[1 := b.values[1] + [second]]);
    assert [Value(first), Value(second)] == [Value(first)] + [Value(second)];
    ValueThen(st, first, [Value(second)], 0);
    assert [Value(second)] == [Value(second)] + [];
    ValueThen(b, second, [], 1);
    assert ApplyEvents(c, [], 2) == Ok(c);
    assert c.values == [st.values[0] + [first], st.values[1] + [second]];
  }

  lemma LineStep(v: Variant, st: ScanState, l: Line)
    requires st.phase == InBody && |st.values| == 2 && PlainTag(l.tag)
    ensures StepRow(v, st, LineRow(l)) == Ok(AfterLine(st, l))
  {
    LineEvents(v, l);
    LineApplied(st, l);
  }

  /** The header row supplies the title and the two dates. */
  lemma HeaderState(rows: seq<Row>, title: string, d0: string, d1: string)
    requires 1 <= |rows| && rows[0] == HeaderRow(title, d0, d1)
    ensures var h := AfterHeader(BalanceSheet, rows);
            && h.title == title && h.dates == [d0, d1]
            && h.values == [[], []] && h.items == [] && h.tags == [] && h.axes == [] && h.abstracts == []
  {
    OnlyOfKind(rows[0], Th);
    var ths := rows[0];
    HeaderTexts(ths[0], ths[1], ths[2]);
    assert ths == [ths[0], ths[1], ths[2]];
  }

  /** A title cell followed by two date cells. */
  lemma HeaderTexts(a: Cell, b: Cell, c: Cell)
    requires a.className == "tl" && b.className == "th" && c.className == "th"
    ensures LastText([a, b, c], "tl", "") == a.text
    ensures TextsOfClass([a, b, c], "th") == [b.text, c.text]
  {
    assert [a, b, c][1..] == [b, c];
    assert [b, c][1..] == [c];
    assert [c][1..] == [];
    assert TextsOfClass([c], "th") == [c.text];
    assert TextsOfClass([b, c], "th") == [b.text, c.text];
  }

  /** Scanning collects both items, in order, each value in its date's
      column, with empty axis and abstract context. */
  lemma TwoByTwoScan(title: string, d0: string, d1: string, l0: Line, l1: Line, details: map<string, DetailBlock>)
    requires PlainTag(l0.tag) && PlainTag(l1.tag)
    ensures var rows := TwoByTwo(title, d0, d1, l0, l1, details).rows;
            && ScanStatement(BalanceSheet, rows).Ok?
            && ScannedTwoByTwo(ScanStatement(BalanceSheet, rows).value, title, d0, d1, l0, l1)
  {
    var rows := TwoByTwo(title, d0, d1, l0, l1, details).rows;
    HeaderThenBody(BalanceSheet, rows);
    HeaderState(rows, title, d0, d1);
    var h := AfterHeader(BalanceSheet, rows);
    assert BodyRows(BalanceSheet, rows) == [LineRow(l0), LineRow(l1)];
    var s2 := ScanTwoLines(BalanceSheet, h, l0, l1);
    TwoLines(h, l0, l1);
    assert ScannedTwoByTwo(s2, title, d0, d1, l0, l1);
  }

  lemma ScanTwoLines(v: Variant, h: ScanState, l0: Line, l1: Line) returns (s2: ScanState)
    requires h.phase == InBody && |h.values| == 2 && PlainTag(l0.tag) && PlainTag(l1.tag)
    ensures s2 == AfterLine(AfterLine(h, l0), l1)
    ensures ScanRows(v, h, [LineRow(l0), LineRow(l1)]) == Ok(s2)
  {
    LineStep(v, h, l0);
    var s1 := AfterLine(h, l0);
    LineStep(v, s1, l1);
    s2 := AfterLine(s1, l1);
    assert ScanRows(v, s2, []) == Ok(s2);
    assert [LineRow(l1)][1..] == [];
    assert ScanRows(v, s1, [LineRow(l1)]) == Ok(s2);
    assert [LineRow(l0), LineRow(l1)][1..] == [LineRow(l1)];
  }

  lemma TwoLines(h: ScanState, l0: Line, l1: Line)
    requires h.values == [[], []] && h.items == [] && h.tags == [] && h.axes == [] && h.abstracts == []
    requires h.currentAxis == "" && h.currentAbstract == ""
    ensures var s2 := AfterLine(AfterLine(h, l0), l1);
            && s2.items == [l0.item, l1.item] && s2.tags == [l0.tag, l1.tag]
            && s2.axes == ["", ""] && s2.abstracts == ["", ""]
            && s2.values == [[l0.first, l1.first], [l0.second, l1.second]]
            && s2.title == h.title && s2.duration == h.duration && s2.dates == h.dates
            && s2.sawColumnNote == h.sawColumnNote
  {
    var s1 := AfterLine(h, l0);
    assert h.values[0] == [] && h.values[1] == [];
    assert [] + [l0.first] == [l0.first] && [] + [l0.second] == [l0.second];
    assert s1.values == [[l0.first], [l0.second]];
    assert AfterLine(s1, l1).values == [[l0.first] + [l1.first], [l0.second] + [l1.second]];
    assert [l0.first] + [l1.first] == [l0.first, l1.first];
    assert [l0.second] + [l1.second] == [l0.second, l1.second];
  }

  /** The record the sheet yields for one date and one item line. */
  function Expected(ctx: FilingContext, title: string, date: string, l: Line, value: string, block: DetailBlock): Record
    requires block.nested.Some?
  {
    Record(ctx.year, ctx.quarter, ctx.cik, title, date, l.item, value, None, "", "", l.tag, block.definition,
           block.nested.value.dataType, block.nested.value.balanceType, block.nested.value.periodType, "")
  }

  /** What the scan of a two-date, two-line balance sheet yields. */
  predicate ScannedTwoByTwo(st: ScanState, title: string, d0: string, d1: string, l0: Line, l1: Line) {
    && st.title == title && st.dates == [d0, d1]
    && st.items == [l0.item, l1.item] && st.tags == [l0.tag, l1.tag]
    && st.axes == ["", ""] && st.abstracts == ["", ""]
    && st.values == [[l0.first, l1.first], [l0.second, l1.second]]
  }

  /** A page whose scan yields two dates and two lines, whose tags have
      type rows, and which has no index table, parses. */
  lemma TwoByTwoAccepted(page: Page, ctx: FilingContext, title: string, d0: string, d1: string, l0: Line, l1: Line)
    requires ScanStatement(BalanceSheet, page.rows).Ok?
    requires ScannedTwoByTwo(ScanStatement(BalanceSheet, page.rows).value, title, d0, d1, l0, l1)
    requires l0.tag in page.details && page.details[l0.tag].nested.Some?
    requires l1.tag in page.details && page.details[l1.tag].nested.Some?
    requires page.footnoteTable.None?
    ensures ParseBalanceSheet(page, ctx).Ok? && |ParseBalanceSheet(page, ctx).value| == 4
  {
    var st := ScanStatement(BalanceSheet, page.rows).value;
    forall i | 0 <= i < |st.tags|
      ensures st.tags[i] in page.details && page.details[st.tags[i]].nested.Some?
    {
      assert st.tags[i] == l0.tag || st.tags[i] == l1.tag;
    }
    forall c | 0 <= c < |st.dates|
      ensures |st.items| <= |st.values[c]|
    {
      assert |st.values[c]| == 2;
    }
    BalanceSheetAccepted(page, ctx);
    assert |st.dates| == 2 && |st.items| == 2;
    assert |st.dates| * |st.items| == 4;
  }

  /** The balance-sheet record at date column `c` and item `i` is the
      expected one when the scan put `date`, the line `l` (outside any axis
      or abstract) and `value` there, and there is no index table. */
  lemma SheetCell(page: Page, ctx: FilingContext, c: nat, i: nat, date: string, l: Line, value: string)
    requires ParseBalanceSheet(page, ctx).Ok? && page.footnoteTable.None?
    requires var st := ScanStatement(BalanceSheet, page.rows).value;
             && c < |st.dates| && i < |st.items| && i < |st.values[c]|
             && st.dates[c] == date && st.items[i] == l.item && st.tags[i] == l.tag
             && st.axes[i] == "" && st.abstracts[i] == "" && st.values[c][i] == value
    ensures var st := ScanStatement(BalanceSheet, page.rows).value;
            && Position(c, |st.items|, i) < |ParseBalanceSheet(page, ctx).value|
            && l.tag in page.details && page.details[l.tag].nested.Some?
    ensures var st := ScanStatement(BalanceSheet, page.rows).value;
            ParseBalanceSheet(page, ctx).value[Position(c, |st.items|, i)] ==
              Expected(ctx, st.title, date, l, value, page.details[l.tag])
  {
    BalanceSheetRecord(page, ctx, c, i);
  }

  /** Any page whose scan yields two dates and two lines with detailed tags,
      and which has no index table, gives exactly four records: the first
      date's two items, then the second date's. */
  lemma TwoByTwoParse(page: Page, ctx: FilingContext, title: string, d0: string, d1: string, l0: Line, l1: Line)
    requires ScanStatement(BalanceSheet, page.rows).Ok?
    requires ScannedTwoByTwo(ScanStatement(BalanceSheet, page.rows).value, title, d0, d1, l0, l1)
    requires l0.tag in page.details && page.details[l0.tag].nested.Some?
    requires l1.tag in page.details && page.details[l1.tag].nested.Some?
    requires page.footnoteTable.None?
    ensures ParseBalanceSheet(page, ctx) == Ok([
      Expected(ctx, title, d0, l0, l0.first, page.details[l0.tag]),
      Expected(ctx, title, d0, l1, l1.first, page.details[l1.tag]),
      Expected(ctx, title, d1, l0, l0.second, page.details[l0.tag]),
      Expected(ctx, title, d1, l1, l1.second, page.details[l1.tag])])
  {
    var r := ParseBalanceSheet(page, ctx);
    TwoByTwoAccepted(page, ctx, title, d0, d1, l0, l1);
    SheetCell(page, ctx, 0, 0, d0, l0, l0.first);
    SheetCell(page, ctx, 0, 1, d0, l1, l1.first);
    SheetCell(page, ctx, 1, 0, d1, l0, l0.second);
    SheetCell(page, ctx, 1, 1, d1, l1, l1.second);
    FourRecords(r.value);
  }

  lemma FourRecords(r: seq<Record>)
    requires |r| == 4
    ensures r == [r[0], r[1], r[2], r[3]]
  {
  }

  /** The two-date, two-line sheet built from plain rows parses into its
      four records, each with its own tag's metadata and an empty footnote. */
  lemma TwoByTwoRecords(ctx: FilingContext, title: string, d0: string, d1: string, l0: Line, l1: Line,
                        details: map<string, DetailBlock>)
    requires PlainTag(l0.tag) && PlainTag(l1.tag)
    requires l0.tag in details && details[l0.tag].nested.Some?
    requires l1.tag in details && details[l1.tag].nested.Some?
    ensures ParseBalanceSheet(TwoByTwo(title, d0, d1, l0, l1, details), ctx) == Ok([
      Expected(ctx, title, d0, l0, l0.first, details[l0.tag]),
      Expected(ctx, title, d0, l1, l1.first, details[l1.tag]),
      Expected(ctx, title, d1, l0, l0.second, details[l0.tag]),
      Expected(ctx, title, d1, l1, l1.second, details[l1.tag])])
  {
    TwoByTwoScan(title, d0, d1, l0, l1, details);
    TwoByTwoParse(TwoByTwo(title, d0, d1, l0, l1, details), ctx, title, d0, d1, l0, l1);
  }
}

=== FILE: statements.dfy ===
/** The two statement parsers: scan the page's first table, resolve each
    item's tag metadata, resolve footnotes, and assemble the records. */
module Statements {
  import opened Results
  import opened Markup
  import opened Classify
  import opened Scan
  import opened Metadata
  import opened Footnotes
  import opened Assembly
  import opened Context

  /** `k` copies of `notes`, one per date column: the shared footnotes
      apply alike to every column. */
  function Replicate(notes: seq<string>, k: nat): (r: seq<seq<string>>)
    ensures |r| == k && forall c :: 0 <= c < k ==> r[c] == notes
  {
    seq(k, _ => notes)
  }

  /** The balance-sheet parser. */
  function ParseBalanceSheet(page: Page, ctx: FilingContext): (r: Result<seq<Record>, ParseError>)
    ensures r.Ok? ==> ScanStatement(BalanceSheet, page.rows).Ok?
    ensures r.Ok? ==> var st := ScanStatement(BalanceSheet, page.rows).value;
                      |r.value| == |st.dates| * |st.items|
  {
    var st :- ScanStatement(BalanceSheet, page.rows);
    var metas :- NestedMetadata(page.details, st.tags);
    var notes :- SharedFootnotes(st.markers, page.footnoteTable, |st.items|);
    Assemble(ctx, st, None, metas, Replicate(notes, |st.dates|))
  }

  /** The income/cash-flow parser. Per-column footnotes, once any "fn"
      cell was seen, take the place of the shared ones. */
  function ParseIncomeOrCashFlowStatement(page: Page, ctx: FilingContext): (r: Result<seq<Record>, ParseError>)
    ensures r.Ok? ==> ScanStatement(IncomeOrCashFlow, page.rows).Ok?
    ensures r.Ok? ==> var st := ScanStatement(IncomeOrCashFlow, page.rows).value;
                      2 <= |st.dates| && |r.value| == |st.dates| * |st.items|
  {
    var st :- ScanStatement(IncomeOrCashFlow, page.rows);
    var metas :- LabelledMetadata(page.details, st.tags);
    var notes := DescribedFootnotes(st.markers, page.footnoteTable, |st.items|);
    if |st.values| < 2 then Err(TooFewColumns(|st.values|))
    else
      var columns := if st.sawColumnNote then st.columnNotes else Replicate(notes, |st.dates|);
      Assemble(ctx, st, Some(st.duration), metas, columns)
  }

  /** When the balance-sheet parser succeeds: the scan succeeds, every
      tag has a detail block with type rows, every marker can be looked up
      in the index table if there is one, and every date column has a
      value for every item and, with an index table, a footnote for every
      item: there must be at least as many markers as items. */
  lemma BalanceSheetAccepted(page: Page, ctx: FilingContext)
    ensures ParseBalanceSheet(page, ctx).Ok? <==>
              && ScanStatement(BalanceSheet, page.rows).Ok?
              && var st := ScanStatement(BalanceSheet, page.rows).value;
                 && (forall i :: 0 <= i < |st.tags| ==> st.tags[i] in page.details && page.details[st.tags[i]].nested.Some?)
                 && (page.footnoteTable.Some? ==>
                       forall k :: 0 <= k < |st.markers| ==> Searchable(st.markers[k], page.footnoteTable.value))
                 && (forall c :: 0 <= c < |st.dates| ==>
                       |st.items| <= |st.values[c]| && (page.footnoteTable.Some? ==> |st.items| <= |st.markers|))
  {
    var scan := ScanStatement(BalanceSheet, page.rows);
    if scan.Ok? {
      var st := scan.value;
      var metas := NestedMetadata(page.details, st.tags);
      var notes := SharedFootnotes(st.markers, page.footnoteTable, |st.items|);
      if metas.Ok? && notes.Ok? {
        var columns := Replicate(notes.value, |st.dates|);
        assert ParseBalanceSheet(page, ctx) == Assemble(ctx, st, None, metas.value, columns);
        assert |notes.value| == if page.footnoteTable.None? then |st.items| else |st.markers|;
        forall c | 0 <= c < |st.dates|
          ensures ColumnComplete(st, columns, c) <==>
                  |st.items| <= |st.values[c]| && (page.footnoteTable.Some? ==> |st.items| <= |st.markers|)
        {
          assert columns[c] == notes.value;
        }
      }
    }
  }

  /** What a balance-sheet record's footnote is: "" without an index
      table, otherwise the resolution of the marker collected at the
      item's position. */
  function SharedFootnote(st: ScanState, table: Option<seq<Row>>, i: nat): string
    requires table.Some? ==> i < |st.markers| && Searchable(st.markers[i], table.value)
  {
    match table
    case None => ""
    case Some(rows) => Resolved(st.markers[i], rows)
  }

  /** The balance-sheet record for date column `c` and item `i`: the
      filing identity, the statement title, the column's date, the item's
      row data, the metadata of the item's own tag, and its footnote. */
  lemma BalanceSheetRecord(page: Page, ctx: FilingContext, c: nat, i: nat)
    requires ParseBalanceSheet(page, ctx).Ok?
    requires var st := ScanStatement(BalanceSheet, page.rows).value; c < |st.dates| && i < |st.items|
    ensures var st := ScanStatement(BalanceSheet, page.rows).value;
            var recs := ParseBalanceSheet(page, ctx).value;
            && Position(c, |st.items|, i) < |recs|
            && i < |st.values[c]|
            && st.tags[i] in page.details && page.details[st.tags[i]].nested.Some?
            && (page.footnoteTable.Some? ==> i < |st.markers| && Searchable(st.markers[i], page.footnoteTable.value))
            && var block := page.details[st.tags[i]];
               recs[Position(c, |st.items|, i)] ==
                 Record(ctx.year, ctx.quarter, ctx.cik, st.title, st.dates[c], st.items[i], st.values[c][i], None,
                        st.axes[i], st.abstracts[i], st.tags[i], block.definition,
                        block.nested.value.dataType, block.nested.value.balanceType, block.nested.value.periodType,
                        SharedFootnote(st, page.footnoteTable, i))
  {
    var st := ScanStatement(BalanceSheet, page.rows).value;
    var metas := NestedMetadata(page.details, st.tags).value;
    var notes := SharedFootnotes(st.markers, page.footnoteTable, |st.items|).value;
    var columns := Replicate(notes, |st.dates|);
    assert ParseBalanceSheet(page, ctx) == Assemble(ctx, st, None, metas, columns);
    AssembleLayout(ctx, st, None, metas, columns, c, i);
  }

  /** Without a footnote index table, every balance-sheet record's
      footnote is empty. */
  lemma BalanceSheetWithoutIndex(page: Page, ctx: FilingContext)
    requires ParseBalanceSheet(page, ctx).Ok? && page.footnoteTable.None?
    ensures forall k :: 0 <= k < |ParseBalanceSheet(page, ctx).value| ==> ParseBalanceSheet(page, ctx).value[k].footnote == ""
  {
    var st := ScanStatement(BalanceSheet, page.rows).value;
    var recs := ParseBalanceSheet(page, ctx).value;
    forall k | 0 <= k < |recs|
      ensures recs[k].footnote == ""
    {
      var c, i := PositionOf(k, |st.dates|, |st.items|);
      BalanceSheetRecord(page, ctx, c, i);
    }
  }

  /** The footnotes the income/cash-flow parser pairs with date column
      `c`: that column's per-column notes once an "fn" cell was seen,
      otherwise the shared described footnotes. */
  function IncomeNotes(st: ScanState, table: Option<seq<Row>>, c: nat): seq<string>
    requires Valid(st) && c < |st.dates|
  {
    if st.sawColumnNote then st.columnNotes[c] else DescribedFootnotes(st.markers, table, |st.items|)
  }

  /** When the income/cash-flow parser succeeds: the scan succeeds, every
      tag has a detail block whose "+ Details" heading, if any, has type
      rows, the first tag's block has such a heading, there are at least
      two date columns, and every date column has a value for every item
      and a footnote for every item: from its own per-column notes once an
      "fn" cell was seen, and otherwise, with an index table, one marker
      per item. */
  lemma IncomeAccepted(page: Page, ctx: FilingContext)
    ensures ParseIncomeOrCashFlowStatement(page, ctx).Ok? <==>
              && ScanStatement(IncomeOrCashFlow, page.rows).Ok?
              && var st := ScanStatement(IncomeOrCashFlow, page.rows).value;
                 && (forall i :: 0 <= i < |st.tags| ==>
                       st.tags[i] in page.details && page.details[st.tags[i]].heading != DetailsHeading(None))
                 && (st.tags == [] || page.details[st.tags[0]].heading.DetailsHeading?)
                 && 2 <= |st.dates|
                 && (forall c :: 0 <= c < |st.dates| ==>
                       && |st.items| <= |st.values[c]|
                       && (if st.sawColumnNote then |st.items| <= |st.columnNotes[c]|
                           else page.footnoteTable.Some? ==> |st.items| <= |st.markers|))
  {
    var scan := ScanStatement(IncomeOrCashFlow, page.rows);
    if scan.Ok? {
      var st := scan.value;
      var metas := LabelledMetadata(page.details, st.tags);
      if metas.Ok? && 2 <= |st.values| {
        var notes := DescribedFootnotes(st.markers, page.footnoteTable, |st.items|);
        var columns := if st.sawColumnNote then st.columnNotes else Replicate(notes, |st.dates|);
        assert ParseIncomeOrCashFlowStatement(page, ctx) == Assemble(ctx, st, Some(st.duration), metas.value, columns);
        forall c | 0 <= c < |st.dates|
          ensures ColumnComplete(st, columns, c) <==>
                  |st.items| <= |st.values[c]| && |st.items| <= |IncomeNotes(st, page.footnoteTable, c)|
        {
          assert columns[c] == IncomeNotes(st, page.footnoteTable, c);
        }
      }
    }
  }

  /** What an income/cash-flow record's footnote is: the per-column note
      when "fn" cells were seen; otherwise "" without an index table, the
      marker itself with an empty one, and the last index row's text less
      the marker with a non-empty one. */
  function IncomeFootnote(st: ScanState, table: Option<seq<Row>>, c: nat, i: nat): string
    requires Valid(st) && c < |st.dates|
    requires st.sawColumnNote ==> i < |st.columnNotes[c]|
    requires !st.sawColumnNote && table.Some? ==> i < |st.markers|
  {
    if st.sawColumnNote then st.columnNotes[c][i]
    else match table
      case None => ""
      case Some(rows) => if rows == [] then st.markers[i] else Describe(rows[|rows| - 1], st.markers[i])
  }

  /** The income/cash-flow record for date column `c` and item `i`: like
      the balance-sheet record, but carrying the duration heading, the type
      rows of the latest tag so far with a "+ Details" heading, and the
      footnote chosen by the page's footnote layout. */
  lemma IncomeOrCashFlowRecord(page: Page, ctx: FilingContext, c: nat, i: nat)
    requires ParseIncomeOrCashFlowStatement(page, ctx).Ok?
    requires var st := ScanStatement(IncomeOrCashFlow, page.rows).value; c < |st.dates| && i < |st.items|
    ensures var st := ScanStatement(IncomeOrCashFlow, page.rows).value;
            && Position(c, |st.items|, i) < |ParseIncomeOrCashFlowStatement(page, ctx).value|
            && i < |st.values[c]|
            && LabelledMetadata(page.details, st.tags).Ok?
            && (st.sawColumnNote ==> i < |st.columnNotes[c]|)
            && (!st.sawColumnNote && page.footnoteTable.Some? ==> i < |st.markers|)
    ensures var st := ScanStatement(IncomeOrCashFlow, page.rows).value;
            var types := page.details[st.tags[LatestLabelled(page.details, st.tags, i).value]].heading.typeRows.value;
            ParseIncomeOrCashFlowStatement(page, ctx).value[Position(c, |st.items|, i)] ==
              Record(ctx.year, ctx.quarter, ctx.cik, st.title, st.dates[c], st.items[i], st.values[c][i],
                     Some(st.duration), st.axes[i], st.abstracts[i], st.tags[i],
                     page.details[st.tags[i]].definition, types.dataType, types.balanceType, types.periodType,
                     IncomeFootnote(st, page.footnoteTable, c, i))
  {
    var st := ScanStatement(IncomeOrCashFlow, page.rows).value;
    var metas := LabelledMetadata(page.details, st.tags).value;
    var notes := DescribedFootnotes(st.markers, page.footnoteTable, |st.items|);
    var columns := if st.sawColumnNote then st.columnNotes else Replicate(notes, |st.dates|);
    assert ParseIncomeOrCashFlowStatement(page, ctx) == Assemble(ctx, st, Some(st.duration), metas, columns);
    AssembleLayout(ctx, st, Some(st.duration), metas, columns, c, i);
  }

  /** Per-column footnotes only ever reach the first date column, while
      the income/cash-flow parser needs at least two columns each with a
      footnote per item: a page whose body holds an "fn" cell and at least
      one item cannot be parsed. */
  lemma ColumnNotesDefeatIncome(page: Page, ctx: FilingContext)
    requires var evs := BodyEvents(IncomeOrCashFlow, BodyRows(IncomeOrCashFlow, page.rows));
             SawNote(evs) && ItemPositions(evs) != []
    ensures ParseIncomeOrCashFlowStatement(page, ctx).Err?
  {
    if ScanStatement(IncomeOrCashFlow, page.rows).Err? {
      return;
    }
    ContextIsInherited(IncomeOrCashFlow, page.rows);
    var st := ScanStatement(IncomeOrCashFlow, page.rows).value;
    if LabelledMetadata(page.details, st.tags).Ok? && 2 <= |st.values| {
      var metas := LabelledMetadata(page.details, st.tags).value;
      assert st.columnNotes[1] == [];
      assert !ColumnComplete(st, st.columnNotes, 1);
    }
  }

  /** A first table without rows: the balance sheet has no dates and no
      items, so it parses to no records; the income/cash-flow statement
      lacks its two date columns and fails. */
  lemma EmptyTable(page: Page, ctx: FilingContext)
    requires page.rows == []
    ensures ParseBalanceSheet(page, ctx) == Ok([])
    ensures ParseIncomeOrCashFlowStatement(page, ctx).Err?
  {
    HeaderThenBody(BalanceSheet, page.rows);
    HeaderThenBody(IncomeOrCashFlow, page.rows);
  }
}

=== FILE: tags.dfy ===
/** Tag extraction: a label cell's inline link calls
    `top.Show.showAR( this, '<tag>', window );` and the tag is what remains
    once the first occurrence of the call's prefix and then the first
    occurrence of its suffix are removed. */
module Tags {
  import opened Text

  const ShowPrefix: string := "top.Show.showAR( this, '"
  const ShowSuffix: string := "', window );"

  function ExtractTag(onclick: string): string {
    ReplaceFirst(ReplaceFirst(onclick, ShowPrefix, ""), ShowSuffix, "")
  }

  /** Removing a pattern that starts the string leaves the rest. */
  lemma RemoveLeading(p: string, rest: string)
    ensures ReplaceFirst(p + rest, p, "") == rest
  {
    assert OccursAt(p + rest, p, 0);
    assert (p + rest)[|p|..] == rest;
  }

  /** Removing a pattern whose first occurrence is at the very end leaves
      what precedes it. */
  lemma RemoveTrailing(t: string, p: string)
    requires forall i: nat :: i < |t| ==> !OccursAt(t + p, p, i)
    ensures ReplaceFirst(t + p, p, "") == t
  {
    assert (t + p)[|t|..] == p;
    assert OccursAt(t + p, p, |t|);
    assert (t + p)[..|t|] == t;
  }

  /** Round trip: the tag written into a link is the tag read back, as long
      as the suffix does not occur before the end. */
  lemma ExtractTagRoundTrip(t: string)
    requires forall i: nat :: i < |t| ==> !OccursAt(t + ShowSuffix, ShowSuffix, i)
    ensures ExtractTag(ShowPrefix + t + ShowSuffix) == t
  {
    assert ShowPrefix + t + ShowSuffix == ShowPrefix + (t + ShowSuffix);
    RemoveLeading(ShowPrefix, t + ShowSuffix);
    RemoveTrailing(t, ShowSuffix);
  }

  /** Every tag free of single quotes (all XBRL element names are)
      survives the round trip. */
  lemma ExtractQuoteFreeTag(t: string)
    requires forall i :: 0 <= i < |t| ==> t[i] != '\''
    ensures ExtractTag(ShowPrefix + t + ShowSuffix) == t
  {
    forall i: nat | i < |t|
      ensures !OccursAt(t + ShowSuffix, ShowSuffix, i)
    {
      assert (t + ShowSuffix)[i] == t[i] != ShowSuffix[0];
    }
    ExtractTagRoundTrip(t);
  }
}

=== FILE: text.dfy ===
/** The few operations of Go's `strings` package the parser relies on,
    over `string` = `seq<char>`. */
module Text {
  import opened Results

  /** `pat` occurs in `s` starting at position `i`. */
  predicate OccursAt(s: string, pat: string, i: nat) {
    i + |pat| <= |s| && s[i..i + |pat|] == pat
  }

  /** `strings.Contains`: `pat` occurs somewhere in `s`. */
  predicate Contains(s: string, pat: string) {
    exists i: nat | i <= |s| :: OccursAt(s, pat, i)
  }

  /** The first position at or after `k` where `pat` occurs in `s`. */
  function IndexFrom(s: string, pat: string, k: nat): (r: Option<nat>)
    decreases |s| - k
    ensures r.Some? ==> k <= r.value && OccursAt(s, pat, r.value)
    ensures r.Some? ==> forall j: nat :: k <= j < r.value ==> !OccursAt(s, pat, j)
    ensures r.None? ==> forall j: nat :: k <= j ==> !OccursAt(s, pat, j)
  {
    if |s| < k + |pat| then None
    else if OccursAt(s, pat, k) then Some(k)
    else IndexFrom(s, pat, k + 1)
  }

  /** `strings.Index`: the first occurrence of `pat` in `s`, if any. */
  function IndexOf(s: string, pat: string): (r: Option<nat>)
    ensures r.Some? <==> Contains(s, pat)
    ensures r.Some? ==> OccursAt(s, pat, r.value)
    ensures r.Some? ==> forall j: nat :: j < r.value ==> !OccursAt(s, pat, j)
  {
    IndexFrom(s, pat, 0)
  }

  /** `strings.Replace(s, target, replacement, 1)`: the first occurrence of
      `target` replaced by `replacement`; `s` itself when there is none. */
  function ReplaceFirst(s: string, target: string, replacement: string): (r: string)
    ensures !Contains(s, target) ==> r == s
    ensures forall i: nat {:trigger OccursAt(s, target, i)} ::
              OccursAt(s, target, i) && (forall j: nat :: j < i ==> !OccursAt(s, target, j)) ==>
                r == s[..i] + replacement + s[i + |target|..]
  {
    match IndexOf(s, target)
    case None => s
    case Some(i) => s[..i] + replacement + s[i + |target|..]
  }

  /** ASCII lower-casing of one character. */
  function LowerChar(c: char): char {
    if 'A' <= c <= 'Z' then (c as int - 'A' as int + 'a' as int) as char else c
  }

  /** `strings.ToLower`, restricted to the ASCII letters. */
  function Lower(s: string): string {
    seq(|s|, i requires 0 <= i < |s| => LowerChar(s[i]))
  }

  /** Lower-casing works character by character, so it distributes over
      concatenation. */
  lemma LowerConcat(a: string, b: string)
    ensures Lower(a + b) == Lower(a) + Lower(b)
  {
  }

  /** Lower-casing commutes with taking a slice. */
  lemma LowerSlice(s: string, i: nat, j: nat)
    requires i <= j <= |s|
    ensures Lower(s)[i..j] == Lower(s[i..j])
  {
  }

  /** A pattern occurs where it is spliced in. */
  lemma OccursBetween(a: string, pat: string, b: string)
    ensures OccursAt(a + pat + b, pat, |a|)
  {
    assert (a + pat + b)[|a|..|a| + |pat|] == pat;
  }

  /** An occurrence survives lower-casing of both sides. */
  lemma LowerOccurs(s: string, pat: string, i: nat)
    requires OccursAt(s, pat, i)
    ensures OccursAt(Lower(s), Lower(pat), i) && Contains(Lower(s), Lower(pat))
  {
    LowerSlice(s, i, i + |pat|);
    assert |Lower(pat)| == |pat| && i <= |Lower(s)|;
    assert OccursAt(Lower(s), Lower(pat), i);
  }

  /** The concatenation of `parts`, in order. */
  function Join(parts: seq<string>): string {
    if parts == [] then "" else parts[0] + Join(parts[1..])
  }

  /** Lower-casing is idempotent. */
  lemma LowerIdempotent(s: string)
    ensures Lower(Lower(s)) == Lower(s)
  {
    var l := Lower(s);
    assert forall i :: 0 <= i < |l| ==> Lower(l)[i] == l[i];
  }
}
